=== FILE: README.md ===
# LabelVideoWithRecogintion: a Dafny model of its sequential core

LabelVideoWithRecogintion is a PyQt tool for labelling video frames and
image folders. A TensorFlow detector proposes boxes for each frame. The user
turns proposals into hand-drawn ("manual") boxes, and a proposal that a
manual box already covers is hidden. This project models the parts of that
tool that are plain logic. Each part is a pure function over immutable
datatypes, and the project proves properties of them.

The model covers:

- **Frame naming and indexing.**
  - A video is listed as every 30th frame, under zero-padded numbers.
  - A frame is shown under the composite name `<dir>/<base>__<ext> ## <id>`.
  - A folder is listed by the base names of its supported image files.
- **Navigation.** The dock's current index, its prev/next guards, and when a
  frame is shown.
- **Detection.** How the detector's ranked outputs are cut to the detections
  shown, and which label map the detector uses.
- **The label map.** Name and class lookups.
- **The detection dock.** Its job queue and model cache, as a state machine
  driven by worker events.
- **Reconciliation.** How detections are hidden or marked as garbage by
  matching manual boxes, using mutual corner containment with a 10% margin.
- **Window helpers.**
  - the recent-files list;
  - the stale-result filter;
  - the choice of detections to convert into manual boxes;
  - the annotation-extension rule;
  - the Pascal VOC / YOLO format toggle.
- **`VideoFile`.** Its frame naming and its state reset.

The outside world is represented by parameters. This covers the file
system, OpenCV, TensorFlow, the dialogs and `natural_sort`. Examples: the
`os.walk` listing, the set of existing files, whether a capture opens and
how many frames it has, which frames can be read, and what a dialog returns.
Python exceptions are modelled as values: `None`, `Err`, or `Raised`.
Where the raising call has already changed state that later calls see, the
value carries that state: the list dock's `Raised`, the combo position
left behind by `_model_selected`, the video source reset by `GetNames`
before its zero-width raise, and the video file `SetFilePath` leaves
behind when it raises.

Modules, one per source file, plus shared helpers:

| module | file | models |
|---|---|---|
| `Wrappers` | wrappers.dfy | `Option` and `Result` |
| `Strings` | strings.dfy | these Python string operations: `'%0Nd' %`, `int()`, `lower()`, `endswith`, `rfind`, `list.index` |
| `Paths` | paths.dfy | POSIX `os.path.split`, `basename`, `dirname`, `splitext`, `join` |
| `Ranges` | ranges.dfy | `range(0, stop, step)` |
| `Geometry` | geometry.dfy | extents, points, and `int()` on floats |
| `Frames` | frames.dfy | the `(name, path, savepath)` record of a loaded image |
| `DetectedShapes` | detected_shape.dfy | libs/detectedShape.py |
| `Reconcile` | reconcile.dfy | LabelVideo.py reconciliation |
| `LabelVideo` | label_video.dfy | LabelVideo.py helpers |
| `LabelMaps` | label_map.dfy | libs/labelMap.py |
| `ObjectDetector` | object_detector.dfy | libs/objectDetector.py |
| `VideoImagesSource` | video_images_source.dfy | libs/videoImagesSource.py |
| `FolderImagesSource` | folder_images_source.dfy | libs/folderImagesSource.py |
| `ImagesList` | images_list.dfy | libs/imagesList.py |
| `VideoFile` | video_file.dfy | libs/videoFile.py |
| `Recognition` | recognition.dfy | libs/recognitionWidget.py |

## Model

| member | source | states |
|---|---|---|
| Geometry.Trunc | libs/detectedShape.py:57 | `int()` on a float truncates toward zero: the result is within one of the input, on the zero side |
| Strings.FormatInt | libs/videoImagesSource.py:50 | `'%0Nd' % n` parses back to `n`; for `n >= 0` it is all digits, exactly `N` long or the digits of `n` when those are longer; a negative `n` gets a leading `-` and is padded to the same total width |
| Strings.ParseInt | libs/videoImagesSource.py:55 | `int(s)` on a run of digits is their decimal value; a leading `+` or `-` before digits gives the signed value; every other string, the empty one included, raises |
| Strings.FormatIntInjective | libs/videoImagesSource.py:50 | distinct frame numbers get distinct padded names |
| Strings.ParseDecimal | libs/videoImagesSource.py:50 | the decimal spelling of `n` parses back to `n` |
| Strings.LastIndexOf | libs/videoImagesSource.py:72 | `rfind`: the result is an occurrence and no later occurrence exists; `None` means there is no occurrence |
| Strings.IndexOf | libs/folderImagesSource.py:51-52 | `x in l` then `l.index(x)`: the first position holding `x` |
| Strings.IndexOfDistinct | libs/videoImagesSource.py:76-78 | in a duplicate-free list, looking up element `i` gives `i` |
| Paths.Basename | libs/folderImagesSource.py:49 | the base name has no separator, ends the path, and follows a separator when shorter than it |
| Paths.Split | libs/videoImagesSource.py:61 | the tail is the base name; the head is the path in front of it minus trailing separators, kept whole when it is nothing but separators |
| Paths.SplitOfJoin | libs/videoImagesSource.py:61 | splitting `dir/name` gives back `dir` and `name` when `dir` does not end in a separator |
| Paths.SplitExt | libs/videoImagesSource.py:62 | the two halves rebuild the path; the extension is empty or runs from the last dot with no further dot or separator; it is non-empty iff the base name has a dot after some non-dot character |
| Paths.SplitExtAtLastDot | libs/videoImagesSource.py:62 | when the base name has an extension, the cut is at the last dot of the path |
| Paths.SplitExtLastDot | libs/videoImagesSource.py:62 | `dir/clip.tar.mp4` splits into `dir/clip.tar` and `.mp4`: only the last extension is taken |
| Paths.SplitExtLeadingDot | libs/videoImagesSource.py:62 | a name like `.hidden` whose only dot leads it has no extension |
| Paths.Join | libs/folderImagesSource.py:39 | an absolute second part replaces the first; otherwise the first part is kept in front, with one separator inserted iff it is non-empty and does not already end in one |
| Ranges.Range | libs/videoFile.py:72 | `range(0, stop, step)` raises exactly for a zero step and otherwise has the Python length |
| Ranges.RangeMembership | libs/videoImagesSource.py:49 | for a positive step, `x` is in the range iff `0 <= x < stop` and the step divides `x` |
| Ranges.RangeAscending | libs/videoImagesSource.py:49 | for a positive step the values strictly ascend |
| DetectedShapes.NewDetectedShape | libs/detectedShape.py:21-28 | a new shape is visible, not garbaged and not selected; label, class, score and extent are kept as given |
| DetectedShapes.Paint | libs/detectedShape.py:30-57 | something is drawn iff the shape is visible; a visible shape with no label gets the empty label, other labels are unchanged; the box is filled iff selected |
| DetectedShapes.PaintOutline | libs/detectedShape.py:38-44 | the outline is the closed path (x0,y0), (x2,y0), (x2,y2), (x0,y2), (x0,y0) |
| DetectedShapes.PaintIdempotent | libs/detectedShape.py:54-55 | painting a painted shape does not change it again |
| Reconcile.PointInsideNeedsProperExtent | LabelVideo.py:889-898 | a point can be inside only an extent with positive width and height |
| Reconcile.PointInsideIsStrict | LabelVideo.py:889-898 | a point on the widened edge is outside, on either axis |
| Reconcile.CheckExtentsSymmetric | LabelVideo.py:877-887 | the match does not depend on argument order |
| Reconcile.CheckExtentsNeedsProper | LabelVideo.py:877-898 | a zero-width, zero-height or inverted extent on either side matches nothing |
| Reconcile.CheckExtentsReflexive | LabelVideo.py:877-898 | an extent matches itself iff it has positive width and height |
| Reconcile.CheckExtentsPerAxis | LabelVideo.py:877-898 | the eight corner tests are equivalent to a mutual interval test on each axis |
| Reconcile.CheckExtentsSizes | LabelVideo.py:877-898 | matching boxes have widths and heights within a factor of 1.2 of each other |
| Reconcile.Sweep | LabelVideo.py:855-869 | after the loop over manual boxes, the shape is hidden iff a box covers it and garbaged iff a `garbage` box covers it; nothing else in the shape changes |
| Reconcile.AddDetectedLabel | LabelVideo.py:850-870 | the row is checked iff no eligible box matches, bold iff one does, and gets ` : garbaged` iff a `garbage` box matches |
| Reconcile.AddDetectedLabelMonotone | LabelVideo.py:862-869 | flags move one way only: visible only if it was visible, garbaged if it was garbaged |
| Reconcile.AddDetectedLabelOrderFree | LabelVideo.py:855 | the order and repetition of manual boxes do not matter |
| Reconcile.AddDetectedLabelIgnoresIneligible | LabelVideo.py:856-857 | boxes whose text is neither the detection's label nor `garbage` never affect it |
| Reconcile.AddDetectedLabelSameEligible | LabelVideo.py:856-857 | two box lists with the same eligible boxes give the same result |
| Reconcile.GarbageFlagging | LabelVideo.py:862-869 | a covering ordinary box hides without garbaging; a covering `garbage` box does both |
| Reconcile.OnObjectsDetected | LabelVideo.py:674-678 | a result is applied iff its path is the current file, one reconciled row per detection in order |
| LabelVideo.RemoveFirst | LabelVideo.py:651-652 | `list.remove` drops exactly the first occurrence: the result is the list with the position of the first `x` cut out, the rest in order |
| LabelVideo.AddRecentFile | LabelVideo.py:650-655 | the path ends up first; a list of at most 7 stays at most 7; a known path keeps the length; only the oldest entry of a full list can be lost |
| LabelVideo.AddRecentFileKeepsOrder | LabelVideo.py:650-655 | the entries behind the head are a subsequence of the old list |
| LabelVideo.AddRecentFileNoDuplicates | LabelVideo.py:650-655 | a duplicate-free list stays duplicate-free and holds the path exactly once |
| LabelVideo.SelectFrom | LabelVideo.py:1010-1012 | the rows chosen are strictly increasing and all differ from the skipped row; each keeps its own label; the count is the number of other rows |
| LabelVideo.SelectFromCovers | LabelVideo.py:1010-1012 | every row other than the skipped one is chosen |
| LabelVideo.ConversionSelection | LabelVideo.py:1002-1031 | "all" converts every row with its label; "all but current" needs a current row and converts every other row; single mode needs a current row and uses the dialog text, else the override, else the label; a cancelled dialog converts nothing |
| LabelVideo.SetFormat | LabelVideo.py:548-561 | a known format turns exactly that flag on and installs its suffix; another value changes nothing |
| LabelVideo.ChangeFormat | LabelVideo.py:563-565 | VOC switches to YOLO, YOLO switches to VOC, neither stays put |
| LabelVideo.ChangeFormatInvolution | LabelVideo.py:548-565 | from a consistent state, the toggle flips the format, and toggling twice restores the state |
| LabelVideo.AnnotationPath | LabelVideo.py:957-964 | the format's extension is appended iff the path does not already end with it, in any letter case |
| LabelVideo.LastFour | LabelVideo.py:958 | `path[-4:]` is the last four characters, or the whole path when it is shorter |
| LabelVideo.ExtensionTest | LabelVideo.py:958 | the `[-4:].lower()` comparison is a case-insensitive suffix test, and an appended extension passes it |
| LabelVideo.AnnotationPathIdempotent | LabelVideo.py:957-964 | normalising the path twice gives the same path as once |
| LabelMaps.Load | libs/labelMap.py:18-22 | the index exists iff the label-map file exists |
| LabelMaps.GetLabels | libs/labelMap.py:24-30 | the category names in index order; empty without entries |
| LabelMaps.GetLabel | libs/labelMap.py:32-33 | a label is returned iff the index has the class, and it is that entry's name |
| LabelMaps.GetClass | libs/labelMap.py:35-41 | the id of the first entry with the name; 0 without entries; `None` when a non-empty index lacks the name |
| LabelMaps.GetClassNumber | libs/labelMap.py:43-47 | the number of classes equals the number of labels |
| LabelMaps.IsEqual | libs/labelMap.py:49-50 | every comparison succeeds |
| LabelMaps.GetLabelOfGetClass | libs/labelMap.py:32-41 | with distinct ids, looking up a present label's class gives the label back |
| ObjectDetector.LabelGlobPattern | libs/objectDetector.py:21-22 | the pattern is the head of `os.path.split` of the graph path followed by `/*.pbtxt` |
| ObjectDetector.LabelGlobBesideGraph | libs/objectDetector.py:21-22 | a graph at `dir/file` is searched for label maps in `dir` |
| ObjectDetector.BareGraphGlobsRoot | libs/objectDetector.py:21-22 | a bare graph file name yields the pattern `/*.pbtxt`, which searches the file system root |
| ObjectDetector.ChooseLabelMapPath | libs/objectDetector.py:20-26 | the last match wins; with no match, the program-wide label map is used |
| ObjectDetector.ToExtent | libs/objectDetector.py:118-119 | the `(ymin, xmin, ymax, xmax)` box becomes the pixel extent `(xmin*W, ymin*H, xmax*W, ymax*H)`, truncated |
| ObjectDetector.Detect | libs/objectDetector.py:110-123 | the result is the longest prefix scored above 0.1, in ranking order; the loop fails iff every score is above 0.1; it fails with a `KeyError` iff the loop reaches an unknown class before the cutoff, and the error names the first such class |
| ObjectDetector.CutoffStopsAtFirstLowScore | libs/objectDetector.py:113 | a later higher score after a low one is not reached |
| ObjectDetector.CutoffUnique | libs/objectDetector.py:113 | the stopping position is unique |
| VideoImagesSource.NewVideoSource | libs/videoImagesSource.py:21-32 | a new source has no capture, no names and no frames |
| VideoImagesSource.GetNames | libs/videoImagesSource.py:38-52 | the list is reset; it is empty when the file is missing or does not open; a zero width raises and leaves the processing size as it was; otherwise the processing size becomes 800 by the scaled height, and the list holds the padded numbers of `range(0, count, 30)` in order |
| VideoImagesSource.ProcessingHeightPositive | libs/videoImagesSource.py:47 | for a real frame size the scaled height is positive iff the frame is at most 800 times wider than high |
| VideoImagesSource.GetNamesMembership | libs/videoImagesSource.py:49-50 | a name is listed iff it is the padded number of a multiple of 30 below the frame count |
| VideoImagesSource.GetNamesAscending | libs/videoImagesSource.py:49-50 | listed frame numbers strictly ascend |
| VideoImagesSource.GetNamesDistinct | libs/videoImagesSource.py:49-50 | listed names are pairwise distinct |
| VideoImagesSource.GetNamesHundredFrames | libs/videoImagesSource.py:49-50 | 100 frames give `00000000`, `00000030`, `00000060`, `00000090` |
| VideoImagesSource.GetNamesRepeatable | libs/videoImagesSource.py:39 | a second call yields the same list: nothing accumulates |
| VideoImagesSource.StripComposite | libs/videoImagesSource.py:71-74 | the looked-up name is the whole name exactly when no ` ## ` occurs, else what follows the last occurrence (no occurrence starts later, overlapping ones included); it ends the name and never holds the delimiter |
| VideoImagesSource.GetIndex | libs/videoImagesSource.py:70-80 | the first position of the stripped name, or 0 when it is not listed |
| VideoImagesSource.ListedNameIsPlain | libs/videoImagesSource.py:50 | listed names are digits only |
| VideoImagesSource.GetIndexLeftInverse | libs/videoImagesSource.py:49-78 | every listed name looks up its own position |
| VideoImagesSource.CompositeName | libs/videoImagesSource.py:61-63 | the composite name ends with ` ## ` followed by the identifier |
| VideoImagesSource.SavePath | libs/videoImagesSource.py:64 | the save path ends with the identifier followed by `.jpg` |
| VideoImagesSource.StripDelimitedSuffix | libs/videoImagesSource.py:70-74 | any name ending in ` ## ` and a space-free identifier is looked up by that identifier |
| VideoImagesSource.CompositeRoundTrip | libs/videoImagesSource.py:61-74 | for an identifier without spaces, the composite name strips back to it and indexes like it, whatever the video path holds |
| VideoImagesSource.SavePathInjective | libs/videoImagesSource.py:64 | distinct identifiers get distinct save paths |
| VideoImagesSource.GetImage | libs/videoImagesSource.py:54-68 | an unparsable name raises; a readable frame of an open capture raises on resize when there is no processing size or it is not positive, and is otherwise returned under its composite name and save path; every other case gives `(False, None)` |
| VideoImagesSource.ZeroWidthFramesRaise | libs/videoImagesSource.py:47-65 | after enumerating a video that reports zero width, every readable frame raises on resize |
| VideoImagesSource.GetImageOfListedName | libs/videoImagesSource.py:38-68 | loading a listed name reads exactly the frame it was formatted from: shown iff that frame is readable and the scaled height is positive, a resize error iff readable and the height is not |
| FolderImagesSource.NewFolderSource | libs/folderImagesSource.py:17-19 | a new source lists nothing |
| FolderImagesSource.Extensions | libs/folderImagesSource.py:27-28 | the extensions are `.` followed by each lower-cased format |
| FolderImagesSource.Filter | libs/folderImagesSource.py:31-33 | a directory keeps exactly its supported files, each as often as the directory lists it |
| FolderImagesSource.Collect | libs/folderImagesSource.py:30-33 | each supported name appears once for every time the walk reports it, across all directories; unsupported names not at all |
| FolderImagesSource.CollectMembership | libs/folderImagesSource.py:30-33 | a file is collected iff some walked directory holds it and it is supported |
| FolderImagesSource.GetNames | libs/folderImagesSource.py:24-36 | the list is rebuilt and stored; a non-directory gives the ordering of the empty list |
| FolderImagesSource.GetNamesMembership | libs/folderImagesSource.py:24-36 | under a permuting order, a name is listed iff the folder is a directory and some walked directory holds it as a supported file |
| FolderImagesSource.GetNamesCounts | libs/folderImagesSource.py:24-36 | under a permuting order, a supported name is listed once per walked directory that holds it, and nothing is listed when the folder is not a directory |
| FolderImagesSource.SupportedIgnoresCase | libs/folderImagesSource.py:32 | the extension match ignores the file name's letter case |
| FolderImagesSource.GetIndex | libs/folderImagesSource.py:48-54 | the first position of the base name, or 0 when it is not listed |
| FolderImagesSource.GetIndexFullPath | libs/folderImagesSource.py:49 | a path joined to a name indexes like the bare name |
| FolderImagesSource.GetImage | libs/folderImagesSource.py:38-46 | a frame is returned iff the name joined to the top-level folder is an existing file; otherwise `(False, None)` |
| ImagesList.LoadItem | libs/imagesList.py:83-87 | a frame is shown only when loading reports success; no source or a raising load ends in `Raised` |
| ImagesList.SetSource | libs/imagesList.py:34-41 | the items become exactly the source's names, in order; the index is kept |
| ImagesList.ShowAt | libs/imagesList.py:50-55 | an existing item is loaded; a missing item raises |
| ImagesList.SetImage | libs/imagesList.py:46-55 | nothing happens without a source; otherwise the index becomes the source's index of the name and the item there is loaded, and an index past the list (an empty list) raises |
| ImagesList.SetPrevImage | libs/imagesList.py:57-64 | the index decreases iff `index - 1 >= 0`; otherwise nothing changes |
| ImagesList.SetNextImage | libs/imagesList.py:66-73 | the index increases iff `index + 1 < count`; otherwise nothing changes |
| ImagesList.ItemDoubleClicked | libs/imagesList.py:79-81 | the index follows the source's lookup of the clicked text, and the clicked item is loaded |
| ImagesList.PrevStaysInRange | libs/imagesList.py:57-64 | an index in `[0, count)` stays there, and stepping back loads the item it lands on |
| ImagesList.NextStaysInRange | libs/imagesList.py:66-73 | an index in `[0, count)` stays there, and stepping forward loads the item it lands on |
| ImagesList.SetImageOfListedVideoFrame | libs/imagesList.py:34-50 | on a freshly enumerated video, choosing a listed name or its composite name selects that name's position |
| VideoFile.SetFilePath | libs/videoFile.py:28-47 | a failed open resets sizes, rate and count but keeps the stride; a successful open stores the count and sets rate and stride to the integer FPS, then always raises |
| VideoFile.New | libs/videoFile.py:12-22 | construction keeps the default stride 30 after a failed open, and raises after a successful one |
| VideoFile.SetProcessingRate | libs/videoFile.py:65-67 | only the stride changes |
| VideoFile.FrameNames | libs/videoFile.py:69-75 | a zero stride raises; otherwise one `__%06d` name per range value, in order |
| VideoFile.FrameNamesMembership | libs/videoFile.py:69-75 | for a positive stride, a name is listed iff it belongs to a multiple of the stride below the count |
| VideoFile.FailedOpenHasNoFrames | libs/videoFile.py:32-37 | after a failed open, the frame names are empty |
| VideoFile.SetProcessingRateKeepsVideo | libs/videoFile.py:65-67 | count, sizes and rate are untouched by the stride setter |
| VideoFile.OpenedStrideIsFrameRate | libs/videoFile.py:43-44 | after opening a 25 fps file, names step by 25, not 30 |
| Recognition.Combo | libs/recognitionWidget.py:54-55 | the combo box is the model list followed by the add-model entry |
| Recognition.ProcessQueue | libs/recognitionWidget.py:103-119 | nothing happens while a detection runs, without a detector, or with an empty queue; otherwise the head is removed and started, and the flag is raised, exactly |
| Recognition.ProcessImage | libs/recognitionWidget.py:91-119 | the job joins the tail; while a detection runs or without a detector it only waits; otherwise the head of the extended queue starts at once and the flag is raised |
| Recognition.DetectionFinished | libs/recognitionWidget.py:133-137 | the flag drops, and with a detector and a queued job the head starts at once |
| Recognition.UpdateModel | libs/recognitionWidget.py:207-224 | the add-model entry and `''` are ignored; a cached name becomes current without a load; any other name becomes current and its load starts |
| Recognition.LoadingResult | libs/recognitionWidget.py:147-154 | a detector is cached under the name current at arrival and becomes current; `None` changes nothing; the label-map warning never shows |
| Recognition.LoadingFinished | libs/recognitionWidget.py:164-167 | dispatch is retried, so a queued job starts when a detector is present |
| Recognition.LastIndex | libs/recognitionWidget.py:186-190 | the last position holding the file |
| Recognition.ModelSelected | libs/recognitionWidget.py:172-205 | a model entry is selected as is; a listed file selects its last position; a new file is appended before the add-model entry and selected; a cancelled dialog re-selects the first position of the current model and updates to it, and raises, with the combo left on the add-model entry, when the current model is not listed |
| Recognition.AddModelNoDuplicate | libs/recognitionWidget.py:184-205 | adding a file never lists it twice, leaves the combo on it, and makes it the current model |
| Recognition.Init | libs/recognitionWidget.py:25-84 | defaults are used without settings; no detector is current; the combo index is the first model named like the saved current model, else 0; the current name is the selected entry, or the saved name when the add-model entry is selected; a load starts for a selected entry that is neither empty nor the add-model entry |
| Recognition.Step | libs/recognitionWidget.py:91-167 | a job starts only when none runs or when one has just finished; a running detection blocks dispatch; each step keeps the queue equation |
| Recognition.RunIsFifo | libs/recognitionWidget.py:91-119 | over any event sequence, started jobs followed by queued ones are the old queue followed by the submitted jobs, in order |
| Recognition.StepInFlight | libs/recognitionWidget.py:103-137 | one event starts a job only when none runs or as the running one completes, so the running count moves by one at most |
| Recognition.RunInFlight | libs/recognitionWidget.py:103-137 | over any event sequence, every started job is completed or is the one detection marked as running |
| Recognition.NoDetectorOnlyQueues | libs/recognitionWidget.py:104 | without a detector, submissions and finish events only queue jobs and start nothing |
| Recognition.CachedUnderArrivalName | libs/recognitionWidget.py:147-224 | choosing model `b` while `a` loads caches `a`'s detector under `b` |

## Left out

- Qt widgets, menus, canvas painting, fonts, colours and zoom arithmetic: these are presentation only.
- TensorFlow graph loading and inference: `Detect` takes the ranked outputs as input, and `ObjectDetector.__init__` takes the glob matches.
- Image decoding and resizing (PIL, numpy, OpenCV reads): whether a frame converts or decodes is a boolean input.
- libs/namedImage.py: the loaders the sources call (`FromFile`, `FromArray`) are not defined in that class. A frame is therefore the record `(name, path, savepath)`.
- `natural_sort` lives in libs/utils, which is not part of this model. It is the `order` parameter, and the membership lemma assumes only that it permutes its input.
- `os.path.abspath` in the folder `GetImage`: the joined path is used as is.
- `os.path` uses POSIX rules only.
- `GetStorageName`: the stored name is the `videoName` or `folderName` field.
- `Strings.ParseInt`: Python's `int()` also accepts surrounding whitespace, `_` separators, and non-ASCII decimal digits. These are not modelled.
- `Strings.Lower`: folds ASCII letters only. Python's `str.lower()` also folds other letters, such as the Kelvin sign to `k`.
- Float rounding is not modelled. Coordinates, scores and frame rates are exact reals, and `int()` is truncation toward zero.
- Worker threads are not modelled. Completions are events applied one at a time. `_on_detection_result` and `_on_detection_error` / `_on_loading_error` change no state and are left out.
- `_detect_objects` and the enabling and disabling of widgets are left out.
- The window queues the loaded image object and compares the detection result with the current path. The model treats a job as the path its result is tagged with.
- The `XML_EXT` and `TXT_EXT` constants come from modules that are not part of this model. They are taken to be `.xml` and `.txt`, the literals `saveLabels` compares against.
- `VideoImagesSource.CompositeRoundTrip`: proved only for identifiers without spaces, which covers every listed identifier. An identifier starting with `## ` would be cut at the wrong delimiter.
- `Recognition.Init`: settings unpickling is an input, and the widget-visibility calls are left out.
- `Recognition.ModelSelected`: takes the activated index as valid (`idx` below the combo's count), as Qt's `activated` signal guarantees.
- `ImagesList.ItemDoubleClicked`: takes the clicked position as an existing item, as the list widget guarantees.
- `SaveCurrentImage` in libs/imagesList.py calls a method the sources do not define, so it is not modelled.
- `VideoFile.SetFilePath`: `frameRate` is reset to the float `0.0` on a failed open. It is modelled as the integer 0.
- The recent-files menu, settings persistence, and the `print` in `saveLabels` are left out.

=== FILE: detected_shape.dfy ===
/**
 * A machine-suggested box (libs/detectedShape.py): its construction
 * defaults and what `paint` draws for it. Pens, fonts and colours are
 * left to Qt; the model keeps the outline, the fill decision and the
 * caption text.
 */
module DetectedShapes {
  import opened Wrappers
  import opened Geometry
  import Strings

  datatype DetectedShape = DetectedShape(
    labelName: Option<string>,
    fclass: int,
    score: real,
    extent: Extent,
    selected: bool,
    visible: bool,
    garbaged: bool)

  /** `DetectedShape(label, fclass, score, extent)`; `labelName` is the source's `label`. */
  function NewDetectedShape(labelName: Option<string>, fclass: int, score: real, extent: Extent): (d: DetectedShape)
    ensures d.visible && !d.garbaged && !d.selected
    ensures d.labelName == labelName && d.fclass == fclass && d.score == score && d.extent == extent
  {
    DetectedShape(labelName, fclass, score, extent, false, true, false)
  }

  /** What one call of `paint` puts on the canvas. */
  datatype Drawing = Drawing(outline: seq<Point>, filled: bool, caption: string)

  /** `paint` also rewrites a missing label to the empty string. */
  datatype Painted = Painted(shape: DetectedShape, drawing: Option<Drawing>)

  /** `int(score * 100)`, the percentage shown next to a label. */
  function Percent(score: real): int {
    Trunc(score * 100.0)
  }

  /** The caption `'{fclass}: {label} - {percent}%'`. */
  function Caption(labelName: string, fclass: int, score: real): string {
    Strings.FormatInt(fclass, 0) + ": " + labelName + " - " + Strings.FormatInt(Percent(score), 0) + "%"
  }

  /** The path `paint` traces around an extent. */
  function BoxPath(e: Extent): seq<Point> {
    [Point(e.xmin, e.ymin), Point(e.xmax, e.ymin), Point(e.xmax, e.ymax), Point(e.xmin, e.ymax), Point(e.xmin, e.ymin)]
  }

  /**
   * A shape is painted only while visible (its extent is always a
   * four-tuple, hence truthy); a painted shape's `None` label becomes `""`.
   */
  function Paint(d: DetectedShape): (p: Painted)
    ensures p.drawing.Some? <==> d.visible
    ensures !d.visible ==> p.shape == d
    ensures d.visible ==> p.shape.labelName.Some? && p.shape == d.(labelName := p.shape.labelName)
    ensures d.visible && d.labelName.Some? ==> p.shape == d
    ensures d.visible && d.labelName.None? ==> p.shape.labelName == Some("")
    ensures p.drawing.Some? ==> p.drawing.value.filled == d.selected
  {
    if !d.visible then Painted(d, None)
    else
      var labelName := d.labelName.GetOr("");
      Painted(d.(labelName := Some(labelName)), Some(Drawing(BoxPath(d.extent), d.selected, Caption(labelName, d.fclass, d.score))))
  }

  /** The path walks the four corners clockwise in screen coordinates and closes. */
  predicate ClosedBoxOutline(outline: seq<Point>, e: Extent) {
    && |outline| == 5
    && outline[0] == outline[4] == Point(e.xmin, e.ymin)
    && (set i | 0 <= i < 4 :: outline[i]) ==
       {Point(e.xmin, e.ymin), Point(e.xmax, e.ymin), Point(e.xmax, e.ymax), Point(e.xmin, e.ymax)}
    // the edges are horizontal, vertical, horizontal, vertical
    && outline[0].y == outline[1].y && outline[1].x == outline[2].x
    && outline[2].y == outline[3].y && outline[3].x == outline[4].x
  }

  lemma PaintOutline(d: DetectedShape)
    requires d.visible
    ensures Paint(d).drawing.Some? && ClosedBoxOutline(Paint(d).drawing.value.outline, d.extent)
  {
    assert Paint(d).drawing.value.outline == BoxPath(d.extent);
    BoxPathClosed(d.extent);
  }

  lemma BoxPathClosed(e: Extent)
    ensures ClosedBoxOutline(BoxPath(e), e)
  {
    FirstFour(BoxPath(e));
  }

  /** The set of the first four points of a path. */
  lemma FirstFour(o: seq<Point>)
    requires |o| >= 4
    ensures (set i | 0 <= i < 4 :: o[i]) == {o[0], o[1], o[2], o[3]}
  {
    var corners := set i | 0 <= i < 4 :: o[i];
    assert o[0] in corners && o[1] in corners && o[2] in corners && o[3] in corners;
    forall p | p in corners ensures p in {o[0], o[1], o[2], o[3]} {
      var i :| 0 <= i < 4 && o[i] == p;
    }
  }

  /** Painting twice leaves the shape as the first paint left it. */
  lemma PaintIdempotent(d: DetectedShape)
    ensures Paint(Paint(d).shape).shape == Paint(d).shape
  {
  }
}

=== FILE: folder_images_source.dfy ===
/**
 * Images of a folder tree as a list of names (libs/folderImagesSource.py).
 * The walk keeps bare file names, filtered by the supported image
 * extensions; lookups go by base name, and loading resolves a name
 * against the top-level folder only. The walk, the supported formats, the
 * existing files and the ordering applied by `natural_sort` are inputs.
 */
module FolderImagesSource {
  import opened Wrappers
  import opened Strings
  import opened Frames
  import opened Paths

  datatype FolderSource = FolderSource(folderName: string, names: seq<string>)

  function NewFolderSource(folderName: string): (s: FolderSource)
    ensures s.folderName == folderName && s.names == []
  {
    FolderSource(folderName, [])
  }

  /**
   * What the file system reports: whether the folder is an existing
   * directory, and the file names of each directory `os.walk` visits.
   */
  datatype FolderListing = FolderListing(isDir: bool, walk: seq<seq<string>>)

  /** `'.%s' % fmt.lower()` for every supported format. */
  function Extensions(formats: seq<string>): (exts: seq<string>)
    ensures |exts| == |formats|
    ensures forall i :: 0 <= i < |formats| ==> exts[i] == "." + Lower(formats[i])
  {
    seq(|formats|, i requires 0 <= i < |formats| => "." + Lower(formats[i]))
  }

  /** `file.lower().endswith(tuple(extensions))`. */
  predicate Supported(file: string, exts: seq<string>) {
    exists e :: e in exts && EndsWith(Lower(file), e)
  }

  /** The supported files of one directory, in listing order. */
  function Filter(files: seq<string>, exts: seq<string>): (kept: seq<string>)
    ensures forall f :: f in kept <==> f in files && Supported(f, exts)
    ensures forall f :: multiset(kept)[f] == if Supported(f, exts) then multiset(files)[f] else 0
    ensures |kept| <= |files|
  {
    if |files| == 0 then []
    else
      var head := if Supported(files[0], exts) then [files[0]] else [];
      var rest := Filter(files[1..], exts);
      assert files == [files[0]] + files[1..];
      assert multiset(files) == multiset{files[0]} + multiset(files[1..]);
      assert multiset(head + rest) == multiset(head) + multiset(rest);
      head + rest
  }

  /** Every file the walk reports, directory after directory, repeats included. */
  function Flatten(walk: seq<seq<string>>): seq<string> {
    if |walk| == 0 then [] else walk[0] + Flatten(walk[1..])
  }

  /**
   * The supported files of the whole walk, directory by directory: a name
   * held by several directories is listed once for each of them.
   */
  function Collect(walk: seq<seq<string>>, exts: seq<string>): (c: seq<string>)
    ensures forall f :: multiset(c)[f] == if Supported(f, exts) then multiset(Flatten(walk))[f] else 0
  {
    if |walk| == 0 then [] else Filter(walk[0], exts) + Collect(walk[1..], exts)
  }

  lemma {:induction false} CollectMembership(walk: seq<seq<string>>, exts: seq<string>, f: string)
    ensures f in Collect(walk, exts) <==> Supported(f, exts) && exists d :: d in walk && f in d
  {
    if |walk| > 0 {
      CollectMembership(walk[1..], exts, f);
      assert forall d :: d in walk <==> d == walk[0] || d in walk[1..];
    }
  }

  /** The ordering `natural_sort` applies only rearranges the list. */
  ghost predicate Permutes(order: seq<string> -> seq<string>) {
    forall x :: multiset(order(x)) == multiset(x)
  }

  /**
   * `GetNames`: the list is rebuilt from nothing; the walk contributes
   * only when the folder is an existing directory, and the result is
   * ordered by `order` in either case.
   */
  function GetNames(s: FolderSource, listing: FolderListing, formats: seq<string>,
                    order: seq<string> -> seq<string>): (r: (FolderSource, seq<string>))
    ensures r.0 == s.(names := r.1)
    ensures !listing.isDir ==> r.1 == order([])
  {
    var found := if listing.isDir then Collect(listing.walk, Extensions(formats)) else [];
    (s.(names := order(found)), order(found))
  }

  /**
   * The names listed are exactly the supported files found in the walk,
   * whatever was listed before.
   */
  lemma GetNamesMembership(s: FolderSource, listing: FolderListing, formats: seq<string>,
                           order: seq<string> -> seq<string>, f: string)
    requires Permutes(order)
    ensures f in GetNames(s, listing, formats, order).1 <==>
      listing.isDir && Supported(f, Extensions(formats)) && exists d :: d in listing.walk && f in d
  {
    var found := if listing.isDir then Collect(listing.walk, Extensions(formats)) else [];
    assert multiset(order(found)) == multiset(found);
    assert f in order(found) <==> f in multiset(order(found));
    assert f in found <==> f in multiset(found);
    CollectMembership(listing.walk, Extensions(formats), f);
  }

  /**
   * Each supported name is listed as many times as the walk reports it:
   * once for every directory holding it.
   */
  lemma GetNamesCounts(s: FolderSource, listing: FolderListing, formats: seq<string>,
                       order: seq<string> -> seq<string>, f: string)
    requires Permutes(order)
    ensures multiset(GetNames(s, listing, formats, order).1)[f] ==
      if listing.isDir && Supported(f, Extensions(formats)) then multiset(Flatten(listing.walk))[f] else 0
  {
    var found := if listing.isDir then Collect(listing.walk, Extensions(formats)) else [];
    assert multiset(order(found)) == multiset(found);
  }

  /** The match ignores case on both sides. */
  lemma SupportedIgnoresCase(file: string, formats: seq<string>)
    ensures Supported(file, Extensions(formats)) <==> Supported(Lower(file), Extensions(formats))
  {
    LowerIdempotent(file);
  }

  lemma LowerIdempotent(s: string)
    ensures Lower(Lower(s)) == Lower(s)
  {
  }

  /**
   * `GetIndex`: the position of the name's base name, the first one when
   * several directories hold the same name, and 0 when it is not listed.
   */
  function GetIndex(s: FolderSource, filename: string): (i: nat)
    ensures Basename(filename) !in s.names ==> i == 0
    ensures Basename(filename) in s.names ==>
      i < |s.names| && s.names[i] == Basename(filename)
      && forall j :: 0 <= j < i ==> s.names[j] != Basename(filename)
  {
    IndexOf(s.names, Basename(filename)).GetOr(0)
  }

  /** A path ending in a name looks up like the bare name. */
  lemma GetIndexFullPath(s: FolderSource, dir: string, name: string)
    requires Sep !in name
    ensures GetIndex(s, Join(dir, name)) == GetIndex(s, name)
  {
    BasenameAfterSep([], name);
    assert [] + name == name;
    if |dir| == 0 || dir[|dir| - 1] == Sep {
      BasenameAfterSep(dir, name);
    } else {
      BasenameAfterSep(dir + [Sep], name);
      assert dir + [Sep] + name == (dir + [Sep]) + name;
    }
  }

  /**
   * `GetImage(filename)`: the name is joined to the top-level folder; a
   * frame comes back only when that path is an existing file, with `ok`
   * telling whether it decoded.
   */
  function GetImage(s: FolderSource, filename: string, files: set<string>, decodes: bool): (r: Fetched)
    ensures r.frame.Some? <==> Join(s.folderName, filename) in files
    ensures r.frame.None? ==> r == NotFetched
    ensures r.frame.Some? ==> r.ok == decodes && r.frame.value == Frame(filename, Join(s.folderName, filename), None)
  {
    var path := Join(s.folderName, filename);
    if path in files then Fetched(decodes, Some(Frame(filename, path, None))) else NotFetched
  }
}

=== FILE: frames.dfy ===
/**
 * What an image source hands back (libs/namedImage.py). The class shown
 * there lacks the `FromFile`/`FromArray` loaders the sources call, so a
 * frame is kept abstract: the name it is listed under, the path it is
 * known by, and, for video frames, where it would be saved. Whether the
 * pixels convert is an input to the sources.
 */
module Frames {
  import opened Wrappers

  datatype Frame = Frame(name: string, path: string, savepath: Option<string>)

  /** The `(res, image)` pair returned by `GetImage`. */
  datatype Fetched = Fetched(ok: bool, frame: Option<Frame>)

  /** `(False, None)`. */
  const NotFetched: Fetched := Fetched(false, None)
}

=== FILE: geometry.dfy ===
/**
 * Plane coordinates shared by detections and manual boxes. Coordinates
 * and scores are exact reals; Python's float rounding is not modelled.
 */
module Geometry {

  /** A box as the sources store it: the tuple `(xmin, ymin, xmax, ymax)`. */
  datatype Extent = Extent(xmin: real, ymin: real, xmax: real, ymax: real)

  datatype Point = Point(x: real, y: real)

  /** An extent with positive width and height. */
  predicate Proper(e: Extent) {
    e.xmin < e.xmax && e.ymin < e.ymax
  }

  /** Python's `int(r)` on a float: truncation toward zero. */
  function Trunc(r: real): (i: int)
    ensures 0.0 <= r ==> 0 <= i && i as real <= r < i as real + 1.0
    ensures r < 0.0 ==> i <= 0 && i as real - 1.0 < r <= i as real
  {
    if r >= 0.0 then r.Floor else -((-r).Floor)
  }
}

=== FILE: images_list.dfy ===
/**
 * The dock that lists a source's names and navigates them
 * (libs/imagesList.py). The widget's items are kept as the list of names
 * it shows; `image_changed` becomes the frame an operation shows, if any.
 * An exception escaping a handler (a `None` item, an unparsable video
 * frame name, a zero video width) ends the operation in `Raised`, with
 * whatever state was reached before it.
 */
module ImagesList {
  import opened Wrappers
  import opened Strings
  import opened Frames
  import Folder = FolderImagesSource
  import Video = VideoImagesSource

  datatype ImageSource =
    | FolderSource(folder: Folder.FolderSource)
    | VideoSource(video: Video.VideoSource)

  /** What the outside world answers while the list works. */
  datatype Environment = Environment(
    listing: Folder.FolderListing,
    formats: seq<string>,
    order: seq<string> -> seq<string>,
    probe: Video.VideoProbe,
    files: set<string>,
    readable: set<int>,
    converts: bool)

  /** `GetNames` on either kind of source: the updated source and the list, `None` when it raises. */
  function SourceGetNames(src: ImageSource, env: Environment): (ImageSource, Option<seq<string>>) {
    match src
    case FolderSource(f) =>
      var r := Folder.GetNames(f, env.listing, env.formats, env.order);
      (FolderSource(r.0), Some(r.1))
    case VideoSource(v) =>
      var r := Video.GetNames(v, env.probe);
      (VideoSource(r.0), r.1)
  }

  function SourceGetIndex(src: ImageSource, name: string): nat {
    match src
    case FolderSource(f) => Folder.GetIndex(f, name)
    case VideoSource(v) => Video.GetIndex(v, name)
  }

  /** `GetImage` on either kind of source; `None` when it raises. */
  function SourceGetImage(src: ImageSource, name: string, env: Environment): Option<Fetched> {
    match src
    case FolderSource(f) => Some(Folder.GetImage(f, name, env.files, env.converts))
    case VideoSource(v) =>
      match Video.GetImage(v, name, env.readable, env.converts)
      case Ok(fetched) => Some(fetched)
      case Err(_) => None
  }

  datatype ImagesList = ImagesList(source: Option<ImageSource>, items: seq<string>, index: int)

  /** A new dock: no source, no items, index 0. */
  const Initial: ImagesList := ImagesList(None, [], 0)

  datatype Outcome =
    | Done(list: ImagesList, shown: Option<Frame>)
    | Raised(list: ImagesList)

  /** `_loadItem`: load the named item and show it only when loading succeeded. */
  function LoadItem(l: ImagesList, name: string, env: Environment): (o: Outcome)
    ensures o.list == l
    ensures o.Raised? <==> l.source.None? || SourceGetImage(l.source.value, name, env).None?
    ensures o.Done? && o.shown.Some? ==>
      var f := SourceGetImage(l.source.value, name, env).value;
      f.ok && f.frame == o.shown
    ensures o.Done? && o.shown.None? ==> !SourceGetImage(l.source.value, name, env).value.ok
  {
    if l.source.None? then Raised(l)
    else match SourceGetImage(l.source.value, name, env)
      case None => Raised(l)
      case Some(f) => Done(l, if f.ok then f.frame else None)
  }

  /** `SetSource`: the items become exactly the new source's names; the index is kept. */
  function SetSource(l: ImagesList, src: ImageSource, env: Environment): (o: Outcome)
    ensures o.list.source == Some(SourceGetNames(src, env).0)
    ensures o.list.index == l.index
    ensures o.Done? <==> SourceGetNames(src, env).1.Some?
    ensures o.Done? ==> o.list.items == SourceGetNames(src, env).1.value && o.shown.None?
    ensures o.Raised? ==> o.list.items == []
  {
    var (updated, names) := SourceGetNames(src, env);
    match names
    case None => Raised(l.(source := Some(updated), items := []))
    case Some(ns) => Done(l.(source := Some(updated), items := ns), None)
  }

  /** Selecting position `i`: the item there is loaded, a missing item raises. */
  function ShowAt(l: ImagesList, i: int, env: Environment): (o: Outcome)
    ensures o.list == l
    ensures 0 <= i < |l.items| ==> o == LoadItem(l, l.items[i], env)
    ensures !(0 <= i < |l.items|) ==> o.Raised?
  {
    if 0 <= i < |l.items| then LoadItem(l, l.items[i], env) else Raised(l)
  }

  /** `SetImage`: nothing without a source, else jump to the source's index for the name. */
  function SetImage(l: ImagesList, name: string, env: Environment): (o: Outcome)
    ensures l.source.None? ==> o == Done(l, None)
    ensures l.source.Some? ==> o.list == l.(index := SourceGetIndex(l.source.value, name))
    ensures var i := if l.source.Some? then SourceGetIndex(l.source.value, name) else 0;
      l.source.Some? && i < |l.items| ==> o == LoadItem(l.(index := i), l.items[i], env)
    ensures l.source.Some? && SourceGetIndex(l.source.value, name) >= |l.items| ==> o.Raised?
  {
    if l.source.None? then Done(l, None)
    else
      var moved := l.(index := SourceGetIndex(l.source.value, name));
      ShowAt(moved, moved.index, env)
  }

  /** `SetPrevImage`: step back only when `index - 1 >= 0`. */
  function SetPrevImage(l: ImagesList, env: Environment): (o: Outcome)
    ensures l.index - 1 >= 0 ==> o.list == l.(index := l.index - 1)
    ensures l.index - 1 < 0 ==> o == Done(l, None)
  {
    if l.index - 1 >= 0 then ShowAt(l.(index := l.index - 1), l.index - 1, env)
    else Done(l, None)
  }

  /** `SetNextImage`: step forward only when `index + 1 < count`. */
  function SetNextImage(l: ImagesList, env: Environment): (o: Outcome)
    ensures l.index + 1 < |l.items| ==> o.list == l.(index := l.index + 1)
    ensures l.index + 1 >= |l.items| ==> o == Done(l, None)
  {
    if l.index + 1 < |l.items| then ShowAt(l.(index := l.index + 1), l.index + 1, env)
    else Done(l, None)
  }

  /**
   * `_itemDoubleClicked`: the index follows the source's lookup of the
   * clicked text, and the clicked item itself is loaded.
   */
  function ItemDoubleClicked(l: ImagesList, pos: nat, env: Environment): (o: Outcome)
    requires pos < |l.items|
    ensures l.source.None? ==> o == Raised(l)
    ensures l.source.Some? ==>
      o == LoadItem(l.(index := SourceGetIndex(l.source.value, l.items[pos])), l.items[pos], env)
  {
    if l.source.None? then Raised(l)
    else LoadItem(l.(index := SourceGetIndex(l.source.value, l.items[pos])), l.items[pos], env)
  }

  predicate InRange(l: ImagesList) {
    0 <= l.index < |l.items|
  }

  /** Prev never moves the index out of the list, and loads the item it lands on. */
  lemma PrevStaysInRange(l: ImagesList, env: Environment)
    requires InRange(l)
    ensures InRange(SetPrevImage(l, env).list)
    ensures l.index >= 1 ==> SetPrevImage(l, env) == LoadItem(l.(index := l.index - 1), l.items[l.index - 1], env)
  {
    PrevKeepsRange(l, env);
    if l.index >= 1 {
      PrevLoads(l, env);
    }
  }

  lemma PrevKeepsRange(l: ImagesList, env: Environment)
    requires InRange(l)
    ensures InRange(SetPrevImage(l, env).list)
  {
  }

  lemma PrevLoads(l: ImagesList, env: Environment)
    requires 1 <= l.index <= |l.items|
    ensures SetPrevImage(l, env) == LoadItem(l.(index := l.index - 1), l.items[l.index - 1], env)
  {
    var i := l.index - 1;
    assert SetPrevImage(l, env) == ShowAt(l.(index := i), i, env);
    ShowAtLoads(l, i, env);
  }

  /** Next never moves the index out of the list, and loads the item it lands on. */
  lemma NextStaysInRange(l: ImagesList, env: Environment)
    requires InRange(l)
    ensures InRange(SetNextImage(l, env).list)
    ensures l.index + 1 < |l.items| ==> SetNextImage(l, env) == LoadItem(l.(index := l.index + 1), l.items[l.index + 1], env)
  {
    NextKeepsRange(l, env);
    if l.index + 1 < |l.items| {
      NextLoads(l, env);
    }
  }

  lemma NextKeepsRange(l: ImagesList, env: Environment)
    requires InRange(l)
    ensures InRange(SetNextImage(l, env).list)
  {
  }

  lemma NextLoads(l: ImagesList, env: Environment)
    requires 0 <= l.index + 1 < |l.items|
    ensures SetNextImage(l, env) == LoadItem(l.(index := l.index + 1), l.items[l.index + 1], env)
  {
    var i := l.index + 1;
    assert SetNextImage(l, env) == ShowAt(l.(index := i), i, env);
    ShowAtLoads(l, i, env);
  }

  /** Selecting a position inside the list loads the item stored there. */
  lemma ShowAtLoads(l: ImagesList, i: int, env: Environment)
    requires 0 <= i < |l.items|
    ensures ShowAt(l.(index := i), i, env) == LoadItem(l.(index := i), l.items[i], env)
  {
    var m := l.(index := i);
    assert m.items == l.items;
    assert 0 <= i < |m.items|;
  }

  /**
   * On a video source just enumerated, choosing a listed name selects its
   * own position, and so does choosing the composite name it is shown under.
   */
  lemma {:induction false} SetImageOfListedVideoFrame(l: ImagesList, v: Video.VideoSource, env: Environment, i: nat)
    requires env.probe.Opened? && env.probe.width != 0
    requires SetSource(l, VideoSource(v), env).Done?
    requires i < |SetSource(l, VideoSource(v), env).list.items|
    ensures var m := SetSource(l, VideoSource(v), env).list;
      && SetImage(m, m.items[i], env).list.index == i
      && SetImage(m, Video.CompositeName(v.videoName, m.items[i]), env).list.index == i
  {
    var m := SetSource(l, VideoSource(v), env).list;
    var count, width, height := env.probe.frameCount, env.probe.width, env.probe.height;
    var u := Video.GetNames(v, env.probe).0;
    assert m.source == Some(VideoSource(u)) && m.items == u.names;
    Video.GetIndexLeftInverse(v, count, width, height, i);
    Video.ListedNameIsPlain(v, count, width, height, i);
    Video.CompositeRoundTrip(u, v.videoName, u.names[i]);
  }
}

=== FILE: label_map.dfy ===
/**
 * Label-map lookups (libs/labelMap.py). The category index is what
 * `create_category_index_from_labelmap` returns: a dictionary from class
 * id to category, kept here as its entries in dictionary order. It is
 * absent when the label-map file does not exist. Parsing the file is not
 * part of this model.
 */
module LabelMaps {
  import opened Wrappers

  datatype Category = Category(id: int, name: string)

  datatype LabelMap = LabelMap(index: Option<seq<Category>>)

  /** Dictionary keys are unique. */
  predicate WellFormed(lm: LabelMap) {
    lm.index.Some? ==>
      forall i, j :: 0 <= i < j < |lm.index.value| ==> lm.index.value[i].id != lm.index.value[j].id
  }

  /** `LabelMap(path)`: the index is built only when the file exists. */
  function Load(fileExists: bool, categories: seq<Category>): (lm: LabelMap)
    ensures lm.index.Some? <==> fileExists
    ensures fileExists ==> lm.index.value == categories
  {
    if fileExists then LabelMap(Some(categories)) else LabelMap(None)
  }

  /** Python truthiness of the index: present and non-empty. */
  predicate HasEntries(lm: LabelMap) {
    lm.index.Some? && |lm.index.value| > 0
  }

  /** `getLabels`: the category names in index order. */
  function GetLabels(lm: LabelMap): (names: seq<string>)
    ensures !HasEntries(lm) ==> names == []
    ensures HasEntries(lm) ==> |names| == |lm.index.value|
    ensures HasEntries(lm) ==> forall i :: 0 <= i < |names| ==> names[i] == lm.index.value[i].name
  {
    if HasEntries(lm) then
      var idx := lm.index.value;
      seq(|idx|, i requires 0 <= i < |idx| => idx[i].name)
    else []
  }

  function FindId(idx: seq<Category>, cls: int): (r: Option<nat>)
    ensures r.Some? ==> r.value < |idx| && idx[r.value].id == cls
    ensures r.None? ==> forall i :: 0 <= i < |idx| ==> idx[i].id != cls
  {
    if |idx| == 0 then None
    else if idx[|idx| - 1].id == cls then Some(|idx| - 1)
    else FindId(idx[..|idx| - 1], cls)
  }

  /**
   * `getLabel(cls)`: the name stored under `cls`; `None` where the source
   * raises (`TypeError` with no index, `KeyError` for an unknown class).
   */
  function GetLabel(lm: LabelMap, cls: int): (r: Option<string>)
    ensures r.Some? <==> lm.index.Some? && exists i :: 0 <= i < |lm.index.value| && lm.index.value[i].id == cls
    ensures r.Some? ==> exists i :: 0 <= i < |lm.index.value| && lm.index.value[i].id == cls && lm.index.value[i].name == r.value
  {
    if lm.index.None? then None
    else match FindId(lm.index.value, cls)
      case None => None
      case Some(i) => Some(lm.index.value[i].name)
  }

  function FindName(idx: seq<Category>, name: string): (r: Option<nat>)
    ensures r.Some? ==> r.value < |idx| && idx[r.value].name == name
    ensures r.Some? ==> forall i :: 0 <= i < r.value ==> idx[i].name != name
    ensures r.None? ==> forall i :: 0 <= i < |idx| ==> idx[i].name != name
  {
    if |idx| == 0 then None
    else if idx[0].name == name then Some(0)
    else match FindName(idx[1..], name)
      case None => None
      case Some(i) => Some(i + 1)
  }

  /**
   * `getClass(label)`: the id of the first entry named `label`; `0` when
   * the index is absent or empty; Python's `None` (here `None`) when a
   * non-empty index lacks the label.
   */
  function GetClass(lm: LabelMap, name: string): (r: Option<int>)
    ensures !HasEntries(lm) ==> r == Some(0)
    ensures HasEntries(lm) && name !in GetLabels(lm) ==> r.None?
    ensures HasEntries(lm) && name in GetLabels(lm) ==>
      (r.Some? && exists i :: 0 <= i < |lm.index.value| && lm.index.value[i] == Category(r.value, name)
                             && forall j :: 0 <= j < i ==> lm.index.value[j].name != name)
  {
    if !HasEntries(lm) then Some(0)
    else match FindName(lm.index.value, name)
      case None =>
        assert forall i :: 0 <= i < |lm.index.value| ==> GetLabels(lm)[i] != name;
        None
      case Some(i) => Some(lm.index.value[i].id)
  }

  /** `getClassNumber`: the number of categories, 0 without an index. */
  function GetClassNumber(lm: LabelMap): (n: nat)
    ensures n == |GetLabels(lm)|
  {
    if HasEntries(lm) then |lm.index.value| else 0
  }

  /** `IsEqual`: every pair of label maps compares equal. */
  function IsEqual(a: LabelMap, b: LabelMap): (r: bool)
    ensures r
  {
    true
  }

  /** Looking a present label's class back up gives the label. */
  lemma {:induction false} GetLabelOfGetClass(lm: LabelMap, name: string)
    requires WellFormed(lm)
    requires name in GetLabels(lm)
    ensures GetClass(lm, name).Some?
    ensures GetLabel(lm, GetClass(lm, name).value) == Some(name)
  {
    var idx := lm.index.value;
    var i := FindName(idx, name).value;
    var cls := idx[i].id;
    assert GetClass(lm, name) == Some(cls);
    FindIdUnique(idx, i);
  }

  /** With unique ids, looking up an entry's id finds that entry. */
  lemma FindIdUnique(idx: seq<Category>, i: nat)
    requires WellFormed(LabelMap(Some(idx)))
    requires i < |idx|
    ensures FindId(idx, idx[i].id) == Some(i)
  {
    var j := FindId(idx, idx[i].id).value;
    assert idx[j].id == idx[i].id;
  }
}

=== FILE: label_video.dfy ===
/**
 * The small pieces of main-window logic in LabelVideo.py that are not
 * reconciliation: the most-recently-used file list, the choice of
 * detections to convert into manual boxes, the annotation-file extension
 * rule of `saveLabels`, and the Pascal VOC / YOLO format toggle.
 */
module LabelVideo {
  import opened Wrappers
  import opened Strings
  import opened DetectedShapes

  // ---------------------------------------------------------------------
  // Recent files (`addRecentFile`, `maxRecent = 7`)

  const MaxRecent: nat := 7

  /** Python's `lst.remove(x)`: drops the first occurrence only. */
  function RemoveFirst<T(==)>(s: seq<T>, x: T): (r: seq<T>)
    requires x in s
    ensures |r| == |s| - 1
    ensures exists k :: 0 <= k < |s| && s[k] == x && x !in s[..k] && r == s[..k] + s[k + 1..]
    ensures forall y :: y in s && y != x ==> y in r
  {
    var k := IndexOf(s, x).value;
    assert forall y :: y in s && y != x ==> y in s[..k] || y in s[k + 1..] by {
      assert s == s[..k] + [x] + s[k + 1..];
    }
    s[..k] + s[k + 1..]
  }

  /** `a` is `b` with some elements deleted and the rest in their order. */
  predicate IsSubsequence<T(==)>(a: seq<T>, b: seq<T>)
    decreases |b|
  {
    if |a| == 0 then true
    else if |b| == 0 then false
    else if a[0] == b[0] then IsSubsequence(a[1..], b[1..])
    else IsSubsequence(a, b[1..])
  }

  lemma {:induction false} SubsequenceOfTail<T>(a: seq<T>, b: seq<T>)
    requires |b| > 0 && IsSubsequence(a, b[1..])
    ensures IsSubsequence(a, b)
    decreases |b|, 0
  {
    if |a| > 0 && a[0] == b[0] {
      SubsequenceDropHead(a, b[1..]);
    }
  }

  lemma {:induction false} SubsequenceDropHead<T>(a: seq<T>, b: seq<T>)
    requires |a| > 0 && IsSubsequence(a, b)
    ensures IsSubsequence(a[1..], b)
    decreases |b|, 1
  {
    if a[0] == b[0] {
      SubsequenceOfTail(a[1..], b);
    } else {
      SubsequenceDropHead(a, b[1..]);
      SubsequenceOfTail(a[1..], b);
    }
  }

  lemma {:induction false} SubsequenceReflexive<T>(s: seq<T>)
    ensures IsSubsequence(s, s)
  {
    if |s| > 0 {
      SubsequenceReflexive(s[1..]);
    }
  }

  /** Deleting one position leaves a subsequence. */
  lemma {:induction false} RemoveAtIsSubsequence<T>(s: seq<T>, k: nat)
    requires k < |s|
    ensures IsSubsequence(s[..k] + s[k + 1..], s)
  {
    if k == 0 {
      assert s[..k] + s[k + 1..] == s[1..];
      SubsequenceReflexive(s[1..]);
      SubsequenceOfTail(s[1..], s);
    } else {
      var r := s[..k] + s[k + 1..];
      RemoveAtIsSubsequence(s[1..], k - 1);
      assert r[1..] == s[1..][..k - 1] + s[1..][k..];
    }
  }

  lemma {:induction false} PrefixIsSubsequence<T>(s: seq<T>, n: nat)
    requires n <= |s|
    ensures IsSubsequence(s[..n], s)
  {
    if n == 0 {
    } else {
      PrefixIsSubsequence(s[1..], n - 1);
      assert s[..n][1..] == s[1..][..n - 1];
    }
  }

  /**
   * `addRecentFile`: a known path moves to the front; a new one is pushed
   * on the front, dropping the oldest entry once the list is full.
   */
  function AddRecentFile(recent: seq<string>, path: string): (r: seq<string>)
    ensures |r| >= 1 && r[0] == path
    ensures |recent| <= MaxRecent ==> |r| <= MaxRecent
    ensures path in recent ==> |r| == |recent|
    ensures forall i :: 0 <= i < |recent| ==>
      recent[i] in r || (i == |recent| - 1 && path !in recent && |recent| >= MaxRecent)
  {
    if path in recent then [path] + RemoveFirst(recent, path)
    else if |recent| >= MaxRecent then [path] + recent[..|recent| - 1]
    else [path] + recent
  }

  /** The entries behind the new head keep their relative order. */
  lemma AddRecentFileKeepsOrder(recent: seq<string>, path: string)
    ensures IsSubsequence(AddRecentFile(recent, path)[1..], recent)
  {
    if path in recent {
      RemoveAtIsSubsequence(recent, IndexOf(recent, path).value);
    } else if |recent| >= MaxRecent {
      PrefixIsSubsequence(recent, |recent| - 1);
    } else {
      SubsequenceReflexive(recent);
    }
  }

  /** On a duplicate-free list, the path ends up in the list exactly once. */
  lemma AddRecentFileNoDuplicates(recent: seq<string>, path: string)
    requires NoDuplicates(recent)
    ensures NoDuplicates(AddRecentFile(recent, path))
    ensures multiset(AddRecentFile(recent, path))[path] == 1
  {
    var r := AddRecentFile(recent, path);
    if path in recent {
      var k := IndexOf(recent, path).value;
      RemoveAtDistinct(recent, k);
    } else if |recent| >= MaxRecent {
      PrefixDistinct(recent, |recent| - 1);
    }
    ConsDistinct(path, r[1..]);
    assert r == [path] + r[1..];
    DistinctCount(r, path);
  }

  lemma RemoveAtDistinct<T>(s: seq<T>, k: nat)
    requires NoDuplicates(s) && k < |s|
    ensures NoDuplicates(s[..k] + s[k + 1..])
    ensures s[k] !in s[..k] + s[k + 1..]
  {
    var t := s[..k] + s[k + 1..];
    assert forall i :: 0 <= i < |t| ==> t[i] == if i < k then s[i] else s[i + 1];
  }

  lemma PrefixDistinct<T>(s: seq<T>, n: nat)
    requires NoDuplicates(s) && n <= |s|
    ensures NoDuplicates(s[..n])
  {
  }

  lemma ConsDistinct<T>(x: T, t: seq<T>)
    requires NoDuplicates(t) && x !in t
    ensures NoDuplicates([x] + t)
  {
    var r := [x] + t;
    forall i, j | 0 <= i < j < |r|
      ensures r[i] != r[j]
    {
      assert r[j] == t[j - 1];
      if i > 0 {
        assert r[i] == t[i - 1];
      }
    }
  }

  lemma {:induction false} DistinctCount<T>(s: seq<T>, x: T)
    requires NoDuplicates(s) && x in s
    ensures multiset(s)[x] == 1
  {
    assert s == [s[0]] + s[1..];
    if s[0] == x {
      assert x !in s[1..];
    } else {
      DistinctCount(s[1..], x);
    }
  }

  // ---------------------------------------------------------------------
  // Converting detections into manual boxes (`_create_shape_from_detected_shape`)

  /** One detection to convert, by its position in the detected-label list, and its new text. */
  datatype Conversion = Conversion(index: nat, text: Option<string>)

  predicate StrictlyIncreasing(c: seq<Conversion>) {
    forall k, l :: 0 <= k < l < |c| ==> c[k].index < c[l].index
  }

  /** Row `j` is among the rows `c` converts. */
  predicate Converts(c: seq<Conversion>, j: nat) {
    exists k :: 0 <= k < |c| && c[k].index == j
  }

  /** Every detection from position `from` on, except `skip`, with its own label. */
  function SelectFrom(shapes: seq<DetectedShape>, skip: Option<nat>, from: nat): (c: seq<Conversion>)
    requires from <= |shapes|
    ensures StrictlyIncreasing(c)
    ensures forall k :: 0 <= k < |c| ==>
      from <= c[k].index < |shapes| && Some(c[k].index) != skip && c[k].text == shapes[c[k].index].labelName
    ensures |c| == |shapes| - from - (if skip.Some? && from <= skip.value < |shapes| then 1 else 0)
    decreases |shapes| - from
  {
    if from == |shapes| then []
    else
      var rest := SelectFrom(shapes, skip, from + 1);
      if Some(from) == skip then rest
      else [Conversion(from, shapes[from].labelName)] + rest
  }

  /** No row from `from` on is missed, other than `skip`. */
  lemma {:induction false} SelectFromCovers(shapes: seq<DetectedShape>, skip: Option<nat>, from: nat, j: nat)
    requires from <= j < |shapes| && Some(j) != skip
    ensures Converts(SelectFrom(shapes, skip, from), j)
    decreases |shapes| - from
  {
    var c := SelectFrom(shapes, skip, from);
    var rest := SelectFrom(shapes, skip, from + 1);
    if j == from {
      assert c == [Conversion(from, shapes[from].labelName)] + rest;
      assert c[0].index == j;
    } else {
      SelectFromCovers(shapes, skip, from + 1, j);
      var k :| 0 <= k < |rest| && rest[k].index == j;
      if Some(from) == skip {
        assert c == rest;
        assert c[k].index == j;
      } else {
        assert c == [Conversion(from, shapes[from].labelName)] + rest;
        assert c[k + 1] == rest[k];
        assert 0 <= k + 1 < |c| && c[k + 1].index == j;
      }
    }
  }

  /**
   * Which detections a conversion request turns into manual boxes, or
   * `None` when the request returns early. `current` is the selected row;
   * `dialogText` is what the label dialog returns when it is asked.
   */
  function ConversionSelection(shapes: seq<DetectedShape>, current: Option<nat>, labelOverride: Option<string>,
                               enquireType: bool, allLabels: bool, dialogText: Option<string>): (r: Option<seq<Conversion>>)
    requires current.Some? ==> current.value < |shapes|
    ensures r.None? <==> (current.None? && (enquireType || !allLabels)) || (!allLabels && enquireType && dialogText.None?)
    // "all": every row, in list order, with its own label
    ensures allLabels && !enquireType ==>
      (r.Some? && |r.value| == |shapes| && forall k :: 0 <= k < |shapes| ==> r.value[k] == Conversion(k, shapes[k].labelName))
    // "all but current": every other row, in list order, with its own label
    ensures allLabels && enquireType && current.Some? ==>
      && r.Some?
      && |r.value| == |shapes| - 1
      && StrictlyIncreasing(r.value)
      && (forall k :: 0 <= k < |r.value| ==> r.value[k].index < |shapes| && r.value[k].index != current.value)
      && (forall k :: 0 <= k < |r.value| ==> r.value[k].index < |shapes| && r.value[k].text == shapes[r.value[k].index].labelName)
      && (forall j: nat :: j < |shapes| && j != current.value ==> Converts(r.value, j))
    // one row: the current one, under the dialog's text, the override, or its own label
    ensures !allLabels && r.Some? ==> (|r.value| == 1 && r.value[0].index == current.value)
    ensures !allLabels && r.Some? ==>
      (r.value[0].text == if enquireType then dialogText else if labelOverride.Some? then labelOverride else shapes[current.value].labelName)
  {
    if allLabels then
      if enquireType then
        if current.None? then None
        else
          var c := SelectFrom(shapes, current, 0);
          assert forall j: nat :: j < |shapes| && j != current.value ==> Converts(c, j) by {
            forall j: nat | j < |shapes| && j != current.value ensures Converts(c, j) {
              SelectFromCovers(shapes, current, 0, j);
            }
          }
          Some(c)
      else
        Some(seq(|shapes|, k requires 0 <= k < |shapes| => Conversion(k, shapes[k].labelName)))
    else if current.None? then None
    else
      var text := if labelOverride.Some? then labelOverride else shapes[current.value].labelName;
      if enquireType then
        if dialogText.None? then None else Some([Conversion(current.value, dialogText)])
      else Some([Conversion(current.value, text)])
  }

  // ---------------------------------------------------------------------
  // Annotation format (`set_format`, `change_format`, `saveLabels`)

  /** `XML_EXT` and `TXT_EXT`, the suffixes `saveLabels` tests for. */
  const XmlExt: string := ".xml"
  const TxtExt: string := ".txt"

  /** The value passed to `set_format`: one of the two format constants or anything else. */
  datatype FormatName = PascalVoc | Yolo | Unrecognised

  /** The window's format flags and the suffix it installs on `LabelFile`. */
  datatype FormatState = FormatState(usingPascalVoc: bool, usingYolo: bool, suffix: string)

  /** Exactly one of the two formats is on and the suffix agrees with it. */
  predicate Consistent(s: FormatState) {
    s.usingPascalVoc != s.usingYolo && s.suffix == (if s.usingPascalVoc then XmlExt else TxtExt)
  }

  function SetFormat(s: FormatState, f: FormatName): (r: FormatState)
    ensures f == Unrecognised ==> r == s
    ensures f != Unrecognised ==> Consistent(r) && r.usingPascalVoc == (f == PascalVoc)
  {
    match f
    case PascalVoc => FormatState(true, false, XmlExt)
    case Yolo => FormatState(false, true, TxtExt)
    case Unrecognised => s
  }

  function ChangeFormat(s: FormatState): (r: FormatState)
    ensures s.usingPascalVoc ==> Consistent(r) && r.usingYolo
    ensures !s.usingPascalVoc && s.usingYolo ==> Consistent(r) && r.usingPascalVoc
    ensures !s.usingPascalVoc && !s.usingYolo ==> r == s
  {
    if s.usingPascalVoc then SetFormat(s, Yolo)
    else if s.usingYolo then SetFormat(s, PascalVoc)
    else s
  }

  /** Toggling flips the format and keeps the state consistent; toggling twice restores it. */
  lemma ChangeFormatInvolution(s: FormatState)
    requires Consistent(s)
    ensures Consistent(ChangeFormat(s))
    ensures ChangeFormat(s).usingPascalVoc != s.usingPascalVoc
    ensures ChangeFormat(ChangeFormat(s)) == s
  {
  }

  /** Python's `path[-4:]`. */
  function LastFour(path: string): (t: string)
    ensures |t| == if |path| < 4 then |path| else 4
    ensures EndsWith(path, t)
  {
    if |path| < 4 then path else path[|path| - 4..]
  }

  /** `annotationFilePath[-4:].lower() != ext`, for a four-character extension. */
  predicate LacksExtension(path: string, ext: string)
    requires |ext| == 4
  {
    Lower(LastFour(path)) != ext
  }

  /**
   * The annotation path `saveLabels` writes to: the VOC (YOLO) extension
   * is appended unless the path already ends with it in any letter case;
   * with neither format on the path is used as given.
   */
  function AnnotationPath(path: string, s: FormatState): (r: string)
    ensures r == path || (s.usingPascalVoc && r == path + XmlExt) || (!s.usingPascalVoc && s.usingYolo && r == path + TxtExt)
    ensures s.usingPascalVoc ==> EndsWith(Lower(r), XmlExt)
    ensures !s.usingPascalVoc && s.usingYolo ==> EndsWith(Lower(r), TxtExt)
    ensures s.usingPascalVoc ==> (r == path <==> EndsWith(Lower(path), XmlExt))
    ensures !s.usingPascalVoc && s.usingYolo ==> (r == path <==> EndsWith(Lower(path), TxtExt))
  {
    if s.usingPascalVoc then
      ExtensionTest(path, XmlExt);
      ExtensionTest(path + XmlExt, XmlExt);
      if LacksExtension(path, XmlExt) then path + XmlExt else path
    else if s.usingYolo then
      ExtensionTest(path, TxtExt);
      ExtensionTest(path + TxtExt, TxtExt);
      if LacksExtension(path, TxtExt) then path + TxtExt else path
    else path
  }

  /** The `[-4:]` test is a case-insensitive suffix test; appending the extension passes it. */
  lemma ExtensionTest(path: string, ext: string)
    requires |ext| == 4 && Lower(ext) == ext
    ensures LacksExtension(path, ext) <==> !EndsWith(Lower(path), ext)
    ensures !LacksExtension(path + ext, ext)
  {
    var p := path + ext;
    assert LastFour(p) == ext;
    if |path| >= 4 {
      assert Lower(path)[|path| - 4..] == Lower(LastFour(path));
    }
  }

  /** Normalising a path that already carries the extension changes nothing. */
  lemma AnnotationPathIdempotent(path: string, s: FormatState)
    ensures AnnotationPath(AnnotationPath(path, s), s) == AnnotationPath(path, s)
  {
  }
}

=== FILE: object_detector.dfy ===
/**
 * The sequential parts of libs/objectDetector.py: where the label map is
 * looked for when a model is loaded, and how the model's ranked outputs
 * are cut down to the detections shown. Graph loading and inference are
 * not modelled; the ranked outputs are an input.
 */
module ObjectDetector {
  import opened Wrappers
  import opened Geometry
  import opened DetectedShapes
  import opened LabelMaps
  import Paths

  /** The glob pattern searched for label maps beside the graph file. */
  function LabelGlobPattern(graphPath: string): (pattern: string)
    ensures pattern == Paths.Split(graphPath).0 + "/*.pbtxt"
  {
    Paths.Dirname(graphPath) + "/*.pbtxt"
  }

  /** A graph at `dir/file` is searched for label maps in `dir`. */
  lemma LabelGlobBesideGraph(dir: string, file: string)
    requires |dir| > 0 && dir[|dir| - 1] != Paths.Sep
    requires Paths.Sep !in file
    ensures LabelGlobPattern(Paths.Join(dir, file)) == dir + "/*.pbtxt"
  {
    Paths.SplitOfJoin(dir, file);
  }

  // A graph given as a bare file name has an empty directory part, so the
  // pattern starts at the separator: the file system root is searched,
  // not the working directory.
  lemma BareGraphGlobsRoot(file: string)
    requires Paths.Sep !in file
    ensures LabelGlobPattern(file) == "/*.pbtxt"
  {
    Paths.TailStartBetween(file, 0);
  }

  /**
   * The label-map path chosen in `__init__`: the loop keeps the last
   * `*.pbtxt` match; with no match it falls back to the program-wide path.
   */
  method ChooseLabelMapPath(matches: seq<string>, programLabelMapPath: string) returns (path: string)
    ensures |matches| > 0 ==> path == matches[|matches| - 1]
    ensures |matches| == 0 ==> path == programLabelMapPath
  {
    var chosen: Option<string> := None;
    var i := 0;
    while i < |matches|
      invariant i <= |matches|
      invariant chosen.None? <==> i == 0
      invariant 0 < i ==> chosen == Some(matches[i - 1])
    {
      chosen := Some(matches[i]);
      i := i + 1;
    }
    path := chosen.GetOr(programLabelMapPath);
  }

  /** A model box in normalised `(ymin, xmin, ymax, xmax)` order. */
  datatype Box = Box(ymin: real, xmin: real, ymax: real, xmax: real)

  /** One ranked output of the model: class, score and box. */
  datatype Ranked = Ranked(cls: int, score: real, box: Box)

  const ScoreThreshold: real := 0.1

  /** Where `detect` raises instead of returning. */
  datatype DetectError =
    | IndexOutOfRange             // every output scored above the threshold
    | UnknownClass(cls: int)      // the label map has no entry for a class

  /**
   * `(int(xmin * width), int(ymin * height), int(xmax * width), int(ymax * height))`:
   * the model's box reordered into an extent in pixels.
   */
  function ToExtent(b: Box, width: int, height: int): (e: Extent)
    ensures e.xmin == Trunc(b.xmin * width as real) as real
    ensures e.ymin == Trunc(b.ymin * height as real) as real
    ensures e.xmax == Trunc(b.xmax * width as real) as real
    ensures e.ymax == Trunc(b.ymax * height as real) as real
  {
    Extent(Trunc(b.xmin * width as real) as real, Trunc(b.ymin * height as real) as real,
           Trunc(b.xmax * width as real) as real, Trunc(b.ymax * height as real) as real)
  }

  /** `n` is the position of the first output at or below the threshold. */
  predicate IsCutoff(outputs: seq<Ranked>, n: nat) {
    n < |outputs| && outputs[n].score <= ScoreThreshold
      && forall i :: 0 <= i < n ==> outputs[i].score > ScoreThreshold
  }

  predicate Known(lm: LabelMap, cls: int) {
    GetLabel(lm, cls).Some?
  }

  /**
   * Position `i` holds the first unknown class the loop reaches: every
   * earlier output is accepted, and this one passes the score test.
   */
  predicate FirstUnknown(outputs: seq<Ranked>, lm: LabelMap, i: nat) {
    i < |outputs| && outputs[i].score > ScoreThreshold && !Known(lm, outputs[i].cls)
      && forall k :: 0 <= k < i ==> outputs[k].score > ScoreThreshold && Known(lm, outputs[k].cls)
  }

  /** The shape `detect` builds from one accepted output. */
  function ShapeOf(o: Ranked, width: int, height: int, lm: LabelMap): DetectedShape
    requires Known(lm, o.cls)
  {
    NewDetectedShape(GetLabel(lm, o.cls), o.cls, o.score, ToExtent(o.box, width, height))
  }

  /**
   * `detect`'s loop: walk the outputs in ranking order while the score
   * is above 0.1. The result is the longest such prefix, never a filtered
   * subset: a later, higher score after a low one is not reached.
   */
  method Detect(outputs: seq<Ranked>, width: int, height: int, lm: LabelMap)
    returns (r: Result<seq<DetectedShape>, DetectError>)
    ensures r.Ok? ==> IsCutoff(outputs, |r.value|)
    ensures r.Ok? ==> forall i :: 0 <= i < |r.value| ==>
      Known(lm, outputs[i].cls) && r.value[i] == ShapeOf(outputs[i], width, height, lm)
    ensures r.Ok? <==> exists n :: IsCutoff(outputs, n) && forall i :: 0 <= i < n ==> Known(lm, outputs[i].cls)
    ensures r == Err(IndexOutOfRange) <==>
      forall i :: 0 <= i < |outputs| ==> outputs[i].score > ScoreThreshold && Known(lm, outputs[i].cls)
    ensures r.Err? && r.error.UnknownClass? ==>
      exists i: nat :: FirstUnknown(outputs, lm, i) && outputs[i].cls == r.error.cls
    ensures (r.Err? && r.error.UnknownClass?) <==> exists i: nat :: FirstUnknown(outputs, lm, i)
  {
    var shapes: seq<DetectedShape> := [];
    var i := 0;
    while true
      invariant i <= |outputs|
      invariant |shapes| == i
      invariant forall k :: 0 <= k < i ==> outputs[k].score > ScoreThreshold && Known(lm, outputs[k].cls)
      invariant forall k :: 0 <= k < i ==> shapes[k] == ShapeOf(outputs[k], width, height, lm)
      decreases |outputs| - i
    {
      if i == |outputs| {
        return Err(IndexOutOfRange);
      }
      if outputs[i].score <= ScoreThreshold {
        assert IsCutoff(outputs, i);
        return Ok(shapes);
      }
      var o := outputs[i];
      if GetLabel(lm, o.cls).None? {
        assert FirstUnknown(outputs, lm, i);
        return Err(UnknownClass(o.cls));
      }
      shapes := shapes + [ShapeOf(o, width, height, lm)];
      i := i + 1;
    }
  }

  /** Ranked scores 0.9, 0.5, 0.09, 0.4: only the first two are accepted. */
  lemma CutoffStopsAtFirstLowScore(b: Box)
    ensures IsCutoff([Ranked(1, 0.9, b), Ranked(1, 0.5, b), Ranked(1, 0.09, b), Ranked(1, 0.4, b)], 2)
  {
  }

  /** The cutoff is unique: at most one position is the first low score. */
  lemma CutoffUnique(outputs: seq<Ranked>, m: nat, n: nat)
    requires IsCutoff(outputs, m) && IsCutoff(outputs, n)
    ensures m == n
  {
  }
}

=== FILE: paths.dfy ===
/**
 * The `os.path` functions the image sources and the detector use, with
 * POSIX rules (`/` is the only separator): `split`, `basename`,
 * `dirname`, `splitext` and `join`.
 */
module Paths {
  import opened Wrappers
  import opened Strings

  const Sep: char := '/'

  /** Index just past the last separator, 0 when there is none. */
  function TailStart(p: string): (i: nat)
    ensures i <= |p|
    ensures Sep !in p[i..]
    ensures 0 < i ==> p[i - 1] == Sep
  {
    match LastIndexOf(p, [Sep])
    case None =>
      assert forall j :: 0 <= j < |p| ==> p[j] != Sep by {
        forall j | 0 <= j < |p| ensures p[j] != Sep {
          assert !OccursAt(p, [Sep], j);
          assert p[j..j + 1] == [p[j]];
        }
      }
      0
    case Some(k) =>
      assert p[k..k + 1] == [Sep];
      assert p[k] == p[k..k + 1][0] == Sep;
      var tail := p[k + 1..];
      assert forall j :: 0 <= j < |tail| ==> tail[j] != Sep by {
        forall j | 0 <= j < |tail| ensures tail[j] != Sep {
          assert tail[j] == p[k + 1 + j];
          assert !OccursAt(p, [Sep], k + 1 + j);
          assert p[k + 1 + j..k + 2 + j] == [p[k + 1 + j]];
        }
      }
      k + 1
  }

  /** A separator just before `k` and none after it put the tail at `k`. */
  lemma TailStartBetween(p: string, k: nat)
    requires k <= |p|
    ensures (0 < k && p[k - 1] == Sep) ==> k <= TailStart(p)
    ensures Sep !in p[k..] ==> TailStart(p) <= k
  {
    var i := TailStart(p);
    assert 0 < k && k - 1 >= i ==> p[k - 1] == p[i..][k - 1 - i];
    assert i > k ==> p[i - 1] == p[k..][i - 1 - k];
  }

  /** The base name of a path is what follows its last separator. */
  lemma BasenameAfterSep(q: string, name: string)
    requires Sep !in name
    requires |q| == 0 || q[|q| - 1] == Sep
    ensures Basename(q + name) == name
  {
    var p := q + name;
    assert p[|q|..] == name;
    TailStartBetween(p, |q|);
  }

  /** `os.path.basename(p)`: everything after the last separator. */
  function Basename(p: string): (b: string)
    ensures Sep !in b
    ensures EndsWith(p, b)
    ensures |b| < |p| ==> p[|p| - |b| - 1] == Sep
  {
    p[TailStart(p)..]
  }

  /** `head.rstrip('/')` unless the head is nothing but separators. */
  function StripTrailingSeps(head: string): (h: string)
    ensures |h| <= |head| && h == head[..|h|]
    ensures forall j :: |h| <= j < |head| ==> head[j] == Sep
    ensures (forall j :: 0 <= j < |head| ==> head[j] == Sep) ==> h == head
    ensures |h| > 0 && h[|h| - 1] == Sep ==> forall j :: 0 <= j < |h| ==> h[j] == Sep
  {
    if |head| == 0 || forall i :: 0 <= i < |head| ==> head[i] == Sep then head
    else StripOnce(head)
  }

  /** `s.rstrip('/')`. */
  function StripOnce(s: string): (h: string)
    ensures |h| <= |s| && h == s[..|h|]
    ensures forall j :: |h| <= j < |s| ==> s[j] == Sep
    ensures |h| == 0 || h[|h| - 1] != Sep
  {
    if |s| == 0 || s[|s| - 1] != Sep then s
    else
      var t := s[..|s| - 1];
      var h := StripOnce(t);
      assert t[..|h|] == s[..|h|];
      h
  }

  /**
   * `os.path.split(p)`: the final component, and the directory part in
   * front of it with its trailing separators removed, unless that part
   * is nothing but separators.
   */
  function Split(p: string): (r: (string, string))
    ensures r.1 == Basename(p)
    ensures |r.0| <= |p| - |r.1| && r.0 == p[..|r.0|]
    ensures forall j :: |r.0| <= j < |p| - |r.1| ==> p[j] == Sep
    ensures |r.0| > 0 && r.0[|r.0| - 1] == Sep ==> forall j :: 0 <= j < |r.0| ==> r.0[j] == Sep
    ensures (forall j :: 0 <= j < |p| - |r.1| ==> p[j] == Sep) ==> r.0 == p[..|p| - |r.1|]
  {
    var i := TailStart(p);
    var head := p[..i];
    var h := StripTrailingSeps(head);
    assert h == p[..|h|] by {
      assert head[..|h|] == p[..|h|];
    }
    (h, p[i..])
  }

  function Dirname(p: string): string {
    Split(p).0
  }

  /**
   * `os.path.splitext(p)`: the extension starts at the last dot of the
   * final component, provided some character before that dot in the
   * component is not itself a dot.
   */
  function SplitExt(p: string): (r: (string, string))
    ensures r.0 + r.1 == p
    ensures r.1 == [] || (r.1[0] == '.' && Sep !in r.1 && '.' !in r.1[1..])
    ensures r.1 != [] <==> HasExtension(Basename(p))
  {
    var start := TailStart(p);
    var name := p[start..];
    match LastIndexOf(name, ['.'])
    case None =>
      NoDotNoExtension(name);
      (p, [])
    case Some(d) =>
      LastDot(name, d);
      if exists j :: 0 <= j < d && name[j] != '.' then
        assert p == p[..start + d] + p[start + d..];
        assert p[start + d..] == name[d..];
        (p[..start + d], p[start + d..])
      else
        assert !HasExtension(name);
        (p, [])
  }

  lemma NoDotNoExtension(name: string)
    requires LastIndexOf(name, ['.']).None?
    ensures !HasExtension(name)
  {
    forall d | 0 <= d < |name| ensures name[d] != '.' {
      assert !OccursAt(name, ['.'], d);
      assert name[d..d + 1] == [name[d]];
    }
  }

  /** The last dot is at `d`: nothing after it is a dot. */
  lemma LastDot(name: string, d: nat)
    requires LastIndexOf(name, ['.']) == Some(d)
    ensures d < |name| && name[d] == '.'
    ensures forall j :: d < j < |name| ==> name[j] != '.'
  {
    assert name[d..d + 1] == ['.'];
    forall j | d < j < |name| ensures name[j] != '.' {
      assert !OccursAt(name, ['.'], j);
      assert name[j..j + 1] == [name[j]];
    }
  }

  /**
   * The final component has an extension: a dot with some character
   * other than a dot before it.
   */
  predicate HasExtension(name: string) {
    exists a, d :: 0 <= a < d < |name| && name[a] != '.' && name[d] == '.'
  }

  /** `os.path.join(a, b)` for two components. */
  function Join(a: string, b: string): (r: string)
    ensures |b| > 0 && b[0] == Sep ==> r == b
    ensures !(|b| > 0 && b[0] == Sep) ==> r == a + b || r == a + [Sep] + b
    ensures !(|b| > 0 && b[0] == Sep) ==> (r == a + [Sep] + b <==> |a| > 0 && a[|a| - 1] != Sep)
    ensures EndsWith(r, b)
  {
    if |b| > 0 && b[0] == Sep then b
    else if |a| == 0 || a[|a| - 1] == Sep then a + b
    else a + [Sep] + b
  }

  /** Splitting a joined path gives back a directory without trailing separator and the name. */
  lemma SplitOfJoin(a: string, b: string)
    requires |a| > 0 && a[|a| - 1] != Sep
    requires Sep !in b
    ensures Split(Join(a, b)) == (a, b)
  {
    var p := Join(a, b);
    assert p == a + [Sep] + b;
    assert p[..|a| + 1] == a + [Sep];
    TailStartBetween(p, |a| + 1);
    assert p[|a| + 1..] == b;
    assert TailStart(p) == |a| + 1;
    assert Split(p).1 == b;
    assert p[|a| - 1] == a[|a| - 1] != Sep;
  }

  /** With an extension present, `splitext` cuts at the last dot of the path. */
  lemma SplitExtAtLastDot(p: string, k: nat)
    requires k < |p| && p[k] == '.'
    requires forall j :: k < j < |p| ==> p[j] != '.' && p[j] != Sep
    requires HasExtension(Basename(p))
    ensures SplitExt(p) == (p[..k], p[k..])
  {
  }

  /**
   * `splitext` keeps only the last extension: `dir/clip.tar.mp4` splits
   * into `dir/clip.tar` and `.mp4`.
   */
  lemma SplitExtLastDot(dir: string, stem: string, ext: string)
    requires |stem| > 0 && stem[0] != '.' && Sep !in stem
    requires '.' !in ext && Sep !in ext
    ensures SplitExt(dir + [Sep] + stem + "." + ext) == (dir + [Sep] + stem, "." + ext)
  {
    var q := dir + [Sep];
    var name := stem + "." + ext;
    assert name[..|stem|] == stem;
    assert name[|stem|..] == "." + ext;
    assert name[0] == stem[0];
    assert q[|q| - 1] == Sep;
    SplitExtAfterSep(q, name, |stem|, ext);
    assert q + name == dir + [Sep] + stem + "." + ext;
    assert q + name[..|stem|] == dir + [Sep] + stem;
  }

  /** `q` ending in a separator, then a name with an extension at `d`. */
  lemma SplitExtAfterSep(q: string, name: string, d: nat, ext: string)
    requires |q| > 0 && q[|q| - 1] == Sep
    requires 0 < d < |name| && name[0] != '.' && name[d..] == "." + ext
    requires Sep !in name[..d]
    requires '.' !in ext && Sep !in ext
    ensures SplitExt(q + name) == (q + name[..d], "." + ext)
  {
    var p := q + name;
    assert name == name[..d] + name[d..];
    assert Sep !in name;
    BasenameAfterSep(q, name);
    assert HasExtension(name) by {
      assert name[d] == name[d..][0] == '.';
    }
    var k := |q| + d;
    assert p[k..] == name[d..];
    CleanAfter(p, k, ext);
    SplitExtAtLastDot(p, k);
    assert p[..k] == q + name[..d];
  }

  /** A dot at `k` followed by an extension word: no dot or separator after `k`. */
  lemma CleanAfter(p: string, k: nat, ext: string)
    requires k <= |p| && p[k..] == "." + ext
    requires '.' !in ext && Sep !in ext
    ensures k < |p| && p[k] == '.'
    ensures forall j :: k < j < |p| ==> p[j] != '.' && p[j] != Sep
  {
    assert p[k] == p[k..][0];
    forall j | k < j < |p| ensures p[j] != '.' && p[j] != Sep {
      assert p[j] == p[k..][j - k] == ext[j - k - 1];
    }
  }

  /** A dot that only leads the file name is not an extension: `dir/.hidden` has none. */
  lemma SplitExtLeadingDot(dir: string, name: string)
    requires '.' !in name && Sep !in name
    ensures SplitExt(dir + [Sep] + "." + name) == (dir + [Sep] + "." + name, "")
  {
    var q, b := dir + [Sep], "." + name;
    assert q + b == dir + [Sep] + "." + name;
    assert forall d :: 0 < d < |b| ==> b[d] == name[d - 1];
    BasenameAfterSep(q, b);
  }
}

=== FILE: ranges.dfy ===
/** Python's `range(0, stop, step)`, the only form the sources use. */
module Ranges {
  import opened Wrappers

  /** How many values `range(0, stop, step)` yields for a non-zero step. */
  function RangeLength(stop: int, step: int): nat
    requires step != 0
  {
    if step > 0 then (if stop <= 0 then 0 else (stop - 1) / step + 1)
    else (if stop >= 0 then 0 else (-stop - 1) / (-step) + 1)
  }

  /** `range(0, stop, step)`; `None` where Python raises for a zero step. */
  function Range(stop: int, step: int): (r: Option<seq<int>>)
    ensures r.None? <==> step == 0
    ensures r.Some? ==> |r.value| == RangeLength(stop, step)
  {
    if step == 0 then None
    else Some(seq(RangeLength(stop, step), k requires 0 <= k => k * step))
  }

  /** For a positive step the range is exactly the multiples of the step in `[0, stop)`. */
  lemma {:induction false} RangeMembership(stop: int, step: int, x: int)
    requires step > 0
    ensures x in Range(stop, step).value <==> 0 <= x < stop && x % step == 0
  {
    var r := Range(stop, step).value;
    if x in r {
      var k :| 0 <= k < |r| && r[k] == x;
      assert x == k * step;
      MultipleBelow(k, step, stop);
      assert (k * step) % step == 0 by { MulMod(k, step); }
    }
    if 0 <= x < stop && x % step == 0 {
      var k := x / step;
      assert x == k * step;
      assert 0 <= k;
      DivBelow(x, step, stop);
      assert r[k] == x;
    }
  }

  lemma MulMod(k: int, step: int)
    requires step > 0
    ensures (k * step) % step == 0
  {
    var x := k * step;
    var m := k - x / step;
    assert step * m == x % step;
    SmallMultiple(step, m);
  }

  /** A multiple of `d` in `[0, d)` is a zero multiple. */
  lemma SmallMultiple(d: int, m: int)
    requires d > 0 && 0 <= d * m < d
    ensures m == 0
  {
    BelowOne(d, m);
    BelowOne(d, -m);
  }

  lemma BelowOne(d: int, m: int)
    requires d > 0 && d * m < d
    ensures m <= 0
  {
  }

  /** `k < RangeLength` means `k * step < stop`. */
  lemma MultipleBelow(k: nat, step: int, stop: int)
    requires step > 0
    requires k < RangeLength(stop, step)
    ensures k * step < stop
  {
    var q := (stop - 1) / step;
    assert k <= q;
    assert k * step <= q * step;
    assert q * step <= stop - 1;
  }

  lemma DivBelow(x: nat, step: int, stop: int)
    requires step > 0 && x < stop
    ensures x / step < RangeLength(stop, step)
  {
    assert x <= stop - 1;
    DivMonotone(x, stop - 1, step);
  }

  lemma DivMonotone(a: int, b: int, d: int)
    requires d > 0 && a <= b
    ensures a / d <= b / d
  {
    var qa, qb := a / d, b / d;
    assert d * (qa - qb) == (a - a % d) - (b - b % d);
    assert d * (qa - qb) < d;
    BelowOne(d, qa - qb);
  }

  /** For a positive step the values ascend strictly. */
  lemma RangeAscending(stop: int, step: int, i: nat, j: nat)
    requires step > 0 && i < j < |Range(stop, step).value|
    ensures Range(stop, step).value[i] < Range(stop, step).value[j]
  {
    var r := Range(stop, step).value;
    assert r[j] - r[i] == (j - i) * step;
  }
}

=== FILE: recognition.dfy ===
/**
 * The detection dock (libs/recognitionWidget.py) as a sequential state
 * machine. Worker threads are replaced by events: a started detection
 * finishes when `DetectionFinished` is applied, a started model load
 * delivers its detector through `LoadingResult` and ends with
 * `LoadingFinished`. The model combo box always shows the model list
 * followed by the `<< Add Model >>` entry, so only the list is stored.
 */
module Recognition {
  import opened Wrappers
  import opened Strings
  import LabelMaps

  const AddModelCommand: string := "<< Add Model >>"

  /** A detection request: the path of the frame to run the detector on. */
  type Job = string

  /** A loaded object detector, known by the graph file it was loaded from. */
  datatype Detector = Detector(graphPath: string)

  datatype Recognition = Recognition(
    queue: seq<Job>,
    inProgress: bool,
    current: Option<Detector>,
    cache: map<string, Detector>,
    currentModelName: string,
    modelList: seq<string>,
    comboIndex: nat,
    runDetection: bool)

  /** The combo box entries: the models, then the add-model command. */
  function Combo(s: Recognition): (items: seq<string>)
    ensures |items| == |s.modelList| + 1 && items[|s.modelList|] == AddModelCommand
    ensures items[..|s.modelList|] == s.modelList
  {
    s.modelList + [AddModelCommand]
  }

  /**
   * `_process_detection_queue`: nothing while a detection runs or no
   * detector is loaded; otherwise the head of the queue, if any, is
   * removed and started, and the flag is raised.
   */
  function ProcessQueue(s: Recognition): (r: (Recognition, Option<Job>))
    ensures (s.inProgress || s.current.None? || |s.queue| == 0) ==> r == (s, None)
    ensures r.1.Some? ==>
      && !s.inProgress && s.current.Some? && |s.queue| > 0
      && r.1.value == s.queue[0]
      && r.0 == s.(queue := s.queue[1..], inProgress := true)
    ensures !s.inProgress && s.current.Some? && |s.queue| > 0 ==>
      r == (s.(queue := s.queue[1..], inProgress := true), Some(s.queue[0]))
    ensures (if r.1.Some? then [r.1.value] else []) + r.0.queue == s.queue
  {
    if s.inProgress || s.current.None? then (s, None)
    else if |s.queue| != 0 then
      assert [s.queue[0]] + s.queue[1..] == s.queue;
      (s.(queue := s.queue[1..], inProgress := true), Some(s.queue[0]))
    else (s, None)
  }

  /** `ProcessImage`: the job joins the tail of the queue, then dispatch is tried. */
  function ProcessImage(s: Recognition, job: Job): (r: (Recognition, Option<Job>))
    ensures (if r.1.Some? then [r.1.value] else []) + r.0.queue == s.queue + [job]
    ensures r.1.Some? ==> r.1.value == (s.queue + [job])[0] && !s.inProgress
    ensures s.inProgress || s.current.None? ==> r == (s.(queue := s.queue + [job]), None)
    ensures !s.inProgress && s.current.Some? ==>
      r == (s.(queue := (s.queue + [job])[1..], inProgress := true), Some((s.queue + [job])[0]))
  {
    ProcessQueue(s.(queue := s.queue + [job]))
  }

  /** `_on_detection_finished`: the flag drops and the next job, if any, starts. */
  function DetectionFinished(s: Recognition): (r: (Recognition, Option<Job>))
    ensures r == ProcessQueue(s.(inProgress := false))
    ensures s.current.Some? && |s.queue| > 0 ==> r.1 == Some(s.queue[0]) && r.0.inProgress
    ensures s.current.None? || |s.queue| == 0 ==> r == (s.(inProgress := false), None)
  {
    ProcessQueue(s.(inProgress := false))
  }

  /**
   * `_update_model`: the add-model entry and the empty name are ignored;
   * a cached model becomes current at once; any other name becomes the
   * current name and its load is started (the name is returned).
   */
  function UpdateModel(s: Recognition, name: string): (r: (Recognition, Option<string>))
    ensures name == AddModelCommand || name == "" ==> r == (s, None)
    ensures name != AddModelCommand && name != "" && name in s.cache ==>
      r == (s.(currentModelName := name, current := Some(s.cache[name])), None)
    ensures name != AddModelCommand && name != "" && name !in s.cache ==>
      r == (s.(currentModelName := name), Some(name))
  {
    if name != AddModelCommand && name != "" then
      var named := s.(currentModelName := name);
      if name in s.cache then (named.(current := Some(s.cache[name])), None)
      else (named, Some(name))
    else (s, None)
  }

  /**
   * `_on_loading_result`: a detector is cached under the model name that
   * is current when it arrives, and becomes current. The label-map
   * comparison that follows always finds the maps equal, so the warning
   * (the second component) is never raised.
   */
  function LoadingResult(s: Recognition, det: Option<Detector>, detectorMap: LabelMaps.LabelMap,
                         programMap: LabelMaps.LabelMap): (r: (Recognition, bool))
    ensures det.None? ==> r.0 == s
    ensures det.Some? ==> r.0 == s.(cache := s.cache[s.currentModelName := det.value], current := det)
    ensures !r.1
  {
    match det
    case None => (s, false)
    case Some(d) =>
      (s.(cache := s.cache[s.currentModelName := d], current := det),
       !LabelMaps.IsEqual(detectorMap, programMap))
  }

  /** `_on_loading_finished`: dispatch is tried again. */
  function LoadingFinished(s: Recognition): (r: (Recognition, Option<Job>))
    ensures r == ProcessQueue(s)
    ensures s.current.Some? && !s.inProgress && |s.queue| > 0 ==> r.1 == Some(s.queue[0])
  {
    ProcessQueue(s)
  }

  /** The last position holding `name`: the add-model loop keeps overwriting its match. */
  function LastIndex(models: seq<string>, name: string): (r: Option<nat>)
    ensures r.Some? <==> name in models
    ensures r.Some? ==> r.value < |models| && models[r.value] == name
    ensures r.Some? ==> forall j :: r.value < j < |models| ==> models[j] != name
  {
    if |models| == 0 then None
    else if models[|models| - 1] == name then Some(|models| - 1)
    else
      var r := LastIndex(models[..|models| - 1], name);
      assert models == models[..|models| - 1] + [models[|models| - 1]];
      r
  }

  /**
   * `selectedModel` read before assignment: `UnboundLocalError`, raised
   * with the combo box still on the activated entry.
   */
  datatype SelectError = UnboundSelection(state: Recognition)

  /**
   * `_model_selected(idx)`. Choosing a model selects it. Choosing the
   * add-model entry asks for a file (`dialog`, empty when cancelled): a
   * file already listed selects its last position, a new one is appended
   * to the list just before the add-model entry and selected; a
   * cancelled dialog falls back to the current model's first position,
   * and raises when the current model is not listed. The selected entry
   * is then handed to `UpdateModel`.
   */
  function ModelSelected(s: Recognition, idx: nat, dialog: string): (r: Result<(Recognition, Option<string>), SelectError>)
    requires idx < |Combo(s)|
    ensures idx < |s.modelList| ==>
      r == Ok(UpdateModel(s.(comboIndex := idx), s.modelList[idx]))
    ensures idx == |s.modelList| && dialog != "" && dialog in s.modelList ==>
      r == Ok(UpdateModel(s.(comboIndex := LastIndex(s.modelList, dialog).value), dialog))
    ensures idx == |s.modelList| && dialog != "" && dialog !in s.modelList ==>
      r == Ok(UpdateModel(s.(modelList := s.modelList + [dialog], comboIndex := |s.modelList|), dialog))
    ensures idx == |s.modelList| && dialog == "" ==>
      (r.Err? <==> s.currentModelName !in s.modelList)
    ensures idx == |s.modelList| && dialog == "" && s.currentModelName in s.modelList ==>
      r == Ok(UpdateModel(s.(comboIndex := IndexOf(s.modelList, s.currentModelName).value), s.currentModelName))
    ensures r.Err? ==> idx == |s.modelList| && r.error == UnboundSelection(s.(comboIndex := idx))
    ensures r.Ok? ==> r.value.0.modelList == s.modelList || r.value.0.modelList == s.modelList + [dialog]
  {
    var remembered := IndexOf(s.modelList, s.currentModelName);
    if idx == |s.modelList| then
      if dialog != "" then
        match LastIndex(s.modelList, dialog)
        case Some(i) => Ok(UpdateModel(s.(comboIndex := i), dialog))
        case None =>
          var grown := s.(modelList := s.modelList + [dialog], comboIndex := |s.modelList|);
          assert Combo(grown)[grown.comboIndex] == dialog;
          Ok(UpdateModel(grown, Combo(grown)[grown.comboIndex]))
      else
        match remembered
        case None => Err(UnboundSelection(s.(comboIndex := idx)))
        case Some(i) => Ok(UpdateModel(s.(comboIndex := i), Combo(s)[i]))
    else Ok(UpdateModel(s.(comboIndex := idx), Combo(s)[idx]))
  }

  /** Adding a model never lists it twice, and the add-model entry stays last. */
  lemma AddModelNoDuplicate(s: Recognition, dialog: string)
    requires dialog != "" && dialog != AddModelCommand
    ensures var r := ModelSelected(s, |s.modelList|, dialog);
      && r.Ok?
      && dialog in r.value.0.modelList
      && (dialog in s.modelList ==> r.value.0.modelList == s.modelList)
      && Combo(r.value.0)[r.value.0.comboIndex] == dialog
      && r.value.0.currentModelName == dialog
  {
    if dialog in s.modelList {
      var i := LastIndex(s.modelList, dialog).value;
      assert Combo(s.(comboIndex := i))[i] == dialog;
    } else {
      var grown := s.(modelList := s.modelList + [dialog], comboIndex := |s.modelList|);
      assert Combo(grown)[|s.modelList|] == dialog;
    }
  }

  /** What the dock reads back from its saved settings; a missing key is `None`. */
  datatype Settings = Settings(runDetection: Option<bool>, modelList: Option<seq<string>>, currentModelName: Option<string>)

  /**
   * `__init__`: without saved settings detection is on and the list is
   * empty; a saved dictionary without a key gives `False`, `[]` or `''`.
   * The combo selects the first model named like the saved current model,
   * else the first entry; that entry goes through `UpdateModel` and then
   * becomes the current name unless it is the add-model entry.
   */
  function Init(saved: Option<Settings>): (r: (Recognition, Option<string>))
    ensures r.0.queue == [] && !r.0.inProgress && r.0.cache == map[]
    ensures saved.None? ==> r.0.runDetection && r.0.modelList == []
    ensures saved.Some? ==> r.0.runDetection == saved.value.runDetection.GetOr(false)
    ensures saved.Some? ==> r.0.modelList == saved.value.modelList.GetOr([])
    ensures var name := if saved.Some? then saved.value.currentModelName.GetOr("") else "";
      r.0.comboIndex == (if name in r.0.modelList then IndexOf(r.0.modelList, name).value else 0)
    ensures r.0.current.None?
    ensures var text := Combo(r.0)[r.0.comboIndex];
      text != AddModelCommand ==> r.0.currentModelName == text
    ensures var name := if saved.Some? then saved.value.currentModelName.GetOr("") else "";
      Combo(r.0)[r.0.comboIndex] == AddModelCommand ==> r.0.currentModelName == name
    ensures var text := Combo(r.0)[r.0.comboIndex];
      r.1 == if text != AddModelCommand && text != "" then Some(text) else None
  {
    var settings := saved.GetOr(Settings(Some(true), Some([]), Some("")));
    var models := settings.modelList.GetOr([]);
    var name := settings.currentModelName.GetOr("");
    var s0 := Recognition([], false, None, map[], name, models, 0, settings.runDetection.GetOr(false));
    var idx := IndexOf(models, name).GetOr(0);
    var s1 := s0.(comboIndex := idx);
    var text := Combo(s1)[idx];
    var (s2, load) := UpdateModel(s1, text);
    if text != AddModelCommand then (s2.(currentModelName := text), load) else (s2, load)
  }

  /** Events that reach the dock from the window and from its workers. */
  datatype Event =
    | Submit(job: Job)                      // `ProcessImage`
    | DetectionDone                         // a detection worker finished
    | LoadDelivered(det: Option<Detector>)  // a load worker's result
    | LoadDone                              // a load worker finished
    | Choose(name: string)                  // `_update_model`

  /** One event: the new state, the job it started and whether it ended a running detection. */
  function Step(s: Recognition, e: Event): (r: (Recognition, Option<Job>, bool))
    ensures r.2 <==> e.DetectionDone? && s.inProgress
    ensures r.1.Some? ==> r.0.inProgress && (!s.inProgress || e.DetectionDone?)
    ensures s.inProgress && !e.DetectionDone? ==> r.0.inProgress && r.1.None?
    ensures (if r.1.Some? then [r.1.value] else []) + r.0.queue
            == s.queue + (if e.Submit? then [e.job] else [])
  {
    match e
    case Submit(job) =>
      var (t, j) := ProcessImage(s, job); (t, j, false)
    case DetectionDone =>
      var (t, j) := DetectionFinished(s); (t, j, s.inProgress)
    case LoadDelivered(det) =>
      var (t, _) := LoadingResult(s, det, LabelMaps.LabelMap(None), LabelMaps.LabelMap(None)); (t, None, false)
    case LoadDone =>
      var (t, j) := LoadingFinished(s); (t, j, false)
    case Choose(name) =>
      var (t, _) := UpdateModel(s, name); (t, None, false)
  }

  function Submitted(events: seq<Event>): seq<Job> {
    if |events| == 0 then []
    else (if events[0].Submit? then [events[0].job] else []) + Submitted(events[1..])
  }

  /** The result of a run of events: final state, jobs started in order, detections completed. */
  datatype Trace = Trace(state: Recognition, started: seq<Job>, completed: nat)

  function Run(s: Recognition, events: seq<Event>): Trace
    decreases |events|
  {
    if |events| == 0 then Trace(s, [], 0)
    else
      var (t, j, done) := Step(s, events[0]);
      var rest := Run(t, events[1..]);
      Trace(rest.state, (if j.Some? then [j.value] else []) + rest.started,
            rest.completed + (if done then 1 else 0))
  }

  /** FIFO: the jobs started, followed by those still queued, are the queue then every submitted job, in order. */
  lemma {:induction false} RunIsFifo(s: Recognition, events: seq<Event>)
    ensures Run(s, events).started + Run(s, events).state.queue == s.queue + Submitted(events)
    decreases |events|
  {
    if |events| > 0 {
      var (t, j, done) := Step(s, events[0]);
      RunIsFifo(t, events[1..]);
      var rest := Run(t, events[1..]);
      var head := if j.Some? then [j.value] else [];
      var sub := if events[0].Submit? then [events[0].job] else [];
      assert Run(s, events) == Trace(rest.state, head + rest.started, rest.completed + (if done then 1 else 0));
      assert Submitted(events) == sub + Submitted(events[1..]);
      ChainQueues(head, t.queue, s.queue, sub, rest.started, rest.state.queue, Submitted(events[1..]));
    }
  }

  /** Splicing one step's queue equation into the rest of the run's. */
  lemma ChainQueues<T>(head: seq<T>, mid: seq<T>, first: seq<T>, sub: seq<T>,
                       started: seq<T>, last: seq<T>, later: seq<T>)
    requires head + mid == first + sub
    requires started + last == mid + later
    ensures (head + started) + last == first + (sub + later)
  {
    calc {
      (head + started) + last;
      head + (started + last);
      head + (mid + later);
      (head + mid) + later;
      (first + sub) + later;
    }
  }

  /**
   * At most one detection in flight: every job started is either
   * completed or is the one the flag marks as running.
   */
  lemma {:induction false} RunInFlight(s: Recognition, events: seq<Event>)
    ensures (if s.inProgress then 1 else 0) + |Run(s, events).started|
            == Run(s, events).completed + (if Run(s, events).state.inProgress then 1 else 0)
    decreases |events|
  {
    if |events| > 0 {
      var (t, j, done) := Step(s, events[0]);
      StepInFlight(s, events[0]);
      RunInFlight(t, events[1..]);
      var rest := Run(t, events[1..]);
      assert Run(s, events) == Trace(rest.state, (if j.Some? then [j.value] else []) + rest.started,
                                     rest.completed + (if done then 1 else 0));
    }
  }

  /** One event starts a job only as the previous one finishes or when none runs. */
  lemma StepInFlight(s: Recognition, e: Event)
    ensures var (t, j, done) := Step(s, e);
      (if s.inProgress then 1 else 0) + (if j.Some? then 1 else 0)
      == (if done then 1 else 0) + (if t.inProgress then 1 else 0)
  {
  }

  /** With no detector loaded, submitted jobs only queue up. */
  lemma {:induction false} NoDetectorOnlyQueues(s: Recognition, events: seq<Event>)
    requires s.current.None?
    requires forall e :: e in events ==> e.Submit? || e.DetectionDone? || e.LoadDone?
    ensures Run(s, events).started == []
    ensures Run(s, events).state.queue == s.queue + Submitted(events)
    decreases |events|
  {
    if |events| > 0 {
      var e := events[0];
      assert e in events;
      NoDetectorStep(s, e);
      var t := Step(s, e).0;
      assert forall x :: x in events[1..] ==> x in events;
      NoDetectorOnlyQueues(t, events[1..]);
      assert Submitted(events) == (if e.Submit? then [e.job] else []) + Submitted(events[1..]);
    }
  }

  /** Without a detector, a submission or a finishing worker starts nothing and only queues. */
  lemma NoDetectorStep(s: Recognition, e: Event)
    requires s.current.None?
    requires e.Submit? || e.DetectionDone? || e.LoadDone?
    ensures Step(s, e).0.current.None? && Step(s, e).1.None?
    ensures Step(s, e).0.queue == s.queue + (if e.Submit? then [e.job] else [])
  {
  }

  /**
   * A result is cached under the name current on arrival: choosing model
   * `b` while `a` loads files `a`'s detector under `b`.
   */
  lemma CachedUnderArrivalName(s: Recognition, a: string, b: string, d: Detector)
    requires a != AddModelCommand && a != "" && a !in s.cache
    requires b != AddModelCommand && b != "" && b !in s.cache
    ensures var s1 := UpdateModel(s, a).0;
      var s2 := UpdateModel(s1, b).0;
      LoadingResult(s2, Some(d), LabelMaps.LabelMap(None), LabelMaps.LabelMap(None)).0.cache[b] == d
  {
  }
}

=== FILE: reconcile.dfy ===
/**
 * Reconciliation of detections against hand-drawn boxes (LabelVideo.py,
 * `pointInside`, `checkExtents`, `addDetectedLabel`, `onObjectsDetected`).
 *
 * A detection is "covered" by a manual box whose text is the detection's
 * label or the reserved `garbage` label when every corner of each box lies
 * strictly inside the other box grown by 10% of its width and height.
 * Covered detections start hidden; a covering `garbage` box also marks the
 * detection as garbaged.
 */
module Reconcile {
  import opened Wrappers
  import opened Geometry
  import opened DetectedShapes
  import Strings

  const GarbageLabel: string := "garbage"

  /** The tolerance: a tenth of the box's width or height on each side. */
  const Margin: real := 0.1

  /** A hand-drawn box: its list-item text and its extent, read only here. */
  datatype ManualShape = ManualShape(text: string, extent: Extent)

  /** `xi < x < xa and yi < y < ya` against `extent` grown by the margin. */
  predicate PointInside(x: real, y: real, e: Extent) {
    var w := e.xmax - e.xmin;
    var h := e.ymax - e.ymin;
    && e.xmin - w * Margin < x < e.xmax + w * Margin
    && e.ymin - h * Margin < y < e.ymax + h * Margin
  }

  /** All four corners of each extent inside the other's grown extent. */
  predicate CheckExtents(a: Extent, b: Extent) {
    && PointInside(a.xmin, a.ymin, b)
    && PointInside(a.xmax, a.ymin, b)
    && PointInside(a.xmax, a.ymax, b)
    && PointInside(a.xmin, a.ymax, b)
    && PointInside(b.xmin, b.ymin, a)
    && PointInside(b.xmax, b.ymin, a)
    && PointInside(b.xmax, b.ymax, a)
    && PointInside(b.xmin, b.ymax, a)
  }

  /** A point inside any extent forces that extent to be proper. */
  lemma PointInsideNeedsProperExtent(x: real, y: real, e: Extent)
    ensures PointInside(x, y, e) ==> Proper(e)
  {
  }

  /** The grown edges themselves are outside, on either axis: `<` is strict. */
  lemma PointInsideIsStrict(x: real, y: real, e: Extent)
    ensures !PointInside(e.xmin - (e.xmax - e.xmin) * Margin, y, e)
    ensures !PointInside(e.xmax + (e.xmax - e.xmin) * Margin, y, e)
    ensures !PointInside(x, e.ymin - (e.ymax - e.ymin) * Margin, e)
    ensures !PointInside(x, e.ymax + (e.ymax - e.ymin) * Margin, e)
  {
  }

  lemma CheckExtentsSymmetric(a: Extent, b: Extent)
    ensures CheckExtents(a, b) == CheckExtents(b, a)
  {
  }

  /** A zero-width, zero-height or inverted extent matches nothing, itself included. */
  lemma CheckExtentsNeedsProper(a: Extent, b: Extent)
    ensures CheckExtents(a, b) ==> Proper(a) && Proper(b)
  {
  }

  /** Every proper extent matches itself. */
  lemma CheckExtentsReflexive(a: Extent)
    ensures CheckExtents(a, a) <==> Proper(a)
  {
  }

  /** Interval `[lo2, hi2]` lies strictly within `[lo1, hi1]` widened by the margin. */
  predicate WithinWidened(lo1: real, hi1: real, lo2: real, hi2: real) {
    var w := hi1 - lo1;
    lo1 - w * Margin < lo2 && hi2 < hi1 + w * Margin
      && lo1 - w * Margin < hi2 && lo2 < hi1 + w * Margin
  }

  /**
   * The eight corner tests separate into one mutual test per axis: an
   * independent statement of the same match.
   */
  lemma CheckExtentsPerAxis(a: Extent, b: Extent)
    ensures CheckExtents(a, b) <==>
      && WithinWidened(b.xmin, b.xmax, a.xmin, a.xmax) && WithinWidened(a.xmin, a.xmax, b.xmin, b.xmax)
      && WithinWidened(b.ymin, b.ymax, a.ymin, a.ymax) && WithinWidened(a.ymin, a.ymax, b.ymin, b.ymax)
  {
  }

  /** Matching boxes differ in width and in height by less than the two margins. */
  lemma CheckExtentsSizes(a: Extent, b: Extent)
    requires CheckExtents(a, b)
    ensures a.xmax - a.xmin < (b.xmax - b.xmin) * (1.0 + 2.0 * Margin)
    ensures a.ymax - a.ymin < (b.ymax - b.ymin) * (1.0 + 2.0 * Margin)
  {
  }

  /** Only boxes carrying the detection's label or `garbage` are compared. */
  predicate Eligible(m: ManualShape, d: DetectedShape) {
    Some(m.text) == d.labelName || m.text == GarbageLabel
  }

  predicate Covers(m: ManualShape, d: DetectedShape) {
    Eligible(m, d) && CheckExtents(m.extent, d.extent)
  }

  predicate AnyCovers(manual: seq<ManualShape>, d: DetectedShape) {
    exists m :: m in manual && Covers(m, d)
  }

  predicate GarbageCovers(manual: seq<ManualShape>, d: DetectedShape) {
    exists m :: m in manual && Covers(m, d) && m.text == GarbageLabel
  }

  /** The row of the detected-label list that shows one detection. */
  datatype ListItem = ListItem(text: string, checked: bool, bold: bool)

  datatype Reconciled = Reconciled(shape: DetectedShape, item: ListItem)

  /** `'{label} -- {int(score * 100)}%'`; a missing label prints as `None`. */
  function ItemText(d: DetectedShape): string {
    d.labelName.GetOr("None") + " -- " + Strings.FormatInt(Percent(d.score), 0) + "%"
  }

  const GarbagedSuffix: string := " : garbaged"

  /**
   * The loop over the manual boxes in list order. Each covering box hides
   * the detection and unchecks its row; a covering `garbage` box also
   * marks it garbaged and rewrites the row text from `dlbl`.
   */
  function Sweep(r: Reconciled, dlbl: string, manual: seq<ManualShape>): (s: Reconciled)
    ensures s.shape == r.shape.(visible := s.shape.visible, garbaged := s.shape.garbaged)
    ensures s.shape.visible == (r.shape.visible && !AnyCovers(manual, r.shape))
    ensures s.shape.garbaged == (r.shape.garbaged || GarbageCovers(manual, r.shape))
    ensures s.item.checked == (r.item.checked && !AnyCovers(manual, r.shape))
    ensures s.item.bold == (r.item.bold || AnyCovers(manual, r.shape))
    ensures s.item.text == if GarbageCovers(manual, r.shape) then dlbl + GarbagedSuffix else r.item.text
    decreases |manual|
  {
    if |manual| == 0 then r
    else
      var m := manual[|manual| - 1];
      var before := Sweep(r, dlbl, manual[..|manual| - 1]);
      assert manual == manual[..|manual| - 1] + [m];
      if Covers(m, before.shape) then
        var shape := before.shape.(visible := false, garbaged := before.shape.garbaged || m.text == GarbageLabel);
        var item := before.item.(checked := false, bold := true,
                                 text := if m.text == GarbageLabel then dlbl + GarbagedSuffix else before.item.text);
        Reconciled(shape, item)
      else
        before
  }

  /** `addDetectedLabel`: a fresh checked row, then the sweep over the manual boxes. */
  function AddDetectedLabel(d: DetectedShape, manual: seq<ManualShape>): (r: Reconciled)
    ensures r.shape == d.(visible := r.shape.visible, garbaged := r.shape.garbaged)
    ensures r.shape.visible <==> d.visible && !AnyCovers(manual, d)
    ensures r.shape.garbaged <==> d.garbaged || GarbageCovers(manual, d)
    ensures r.item.checked <==> !AnyCovers(manual, d)
    ensures r.item.bold <==> AnyCovers(manual, d)
    ensures r.item.text == ItemText(d) + (if GarbageCovers(manual, d) then GarbagedSuffix else "")
  {
    Sweep(Reconciled(d, ListItem(ItemText(d), true, false)), ItemText(d), manual)
  }

  /** Flags move one way only: a hidden detection stays hidden, a garbaged one stays garbaged. */
  lemma AddDetectedLabelMonotone(d: DetectedShape, manual: seq<ManualShape>)
    ensures AddDetectedLabel(d, manual).shape.visible ==> d.visible
    ensures d.garbaged ==> AddDetectedLabel(d, manual).shape.garbaged
  {
  }

  /** The order (and multiplicity) of the manual boxes does not matter. */
  lemma AddDetectedLabelOrderFree(d: DetectedShape, m1: seq<ManualShape>, m2: seq<ManualShape>)
    requires forall m :: m in m1 <==> m in m2
    ensures AddDetectedLabel(d, m1) == AddDetectedLabel(d, m2)
  {
    AddDetectedLabelSameEligible(d, m1, m2);
  }

  function EligibleOnly(manual: seq<ManualShape>, d: DetectedShape): (e: seq<ManualShape>)
    ensures forall m :: m in e <==> m in manual && Eligible(m, d)
  {
    if |manual| == 0 then []
    else (if Eligible(manual[0], d) then [manual[0]] else []) + EligibleOnly(manual[1..], d)
  }

  /** Boxes of other labels never affect a detection. */
  lemma AddDetectedLabelIgnoresIneligible(d: DetectedShape, manual: seq<ManualShape>)
    ensures AddDetectedLabel(d, manual) == AddDetectedLabel(d, EligibleOnly(manual, d))
  {
    AddDetectedLabelSameEligible(d, manual, EligibleOnly(manual, d));
  }

  /** Two lists with the same eligible boxes reconcile a detection alike. */
  lemma AddDetectedLabelSameEligible(d: DetectedShape, m1: seq<ManualShape>, m2: seq<ManualShape>)
    requires forall m :: m in m1 && Eligible(m, d) <==> m in m2 && Eligible(m, d)
    ensures AddDetectedLabel(d, m1) == AddDetectedLabel(d, m2)
  {
    assert AnyCovers(m1, d) == AnyCovers(m2, d);
    assert GarbageCovers(m1, d) == GarbageCovers(m2, d);
  }

  /** An ordinary covering box hides without garbaging; a `garbage` one does both. */
  lemma GarbageFlagging(d: DetectedShape, m: ManualShape)
    requires d.visible && !d.garbaged
    requires Covers(m, d)
    ensures !AddDetectedLabel(d, [m]).shape.visible
    ensures AddDetectedLabel(d, [m]).shape.garbaged <==> m.text == GarbageLabel
  {
    assert m in [m];
  }

  /** A detection result tagged with the path of the frame it was computed for. */
  datatype DetectionResult = DetectionResult(path: string, shapes: seq<DetectedShape>)

  /**
   * `onObjectsDetected`: a result is applied only to the frame it was
   * computed for; a stale one changes nothing.
   */
  function OnObjectsDetected(filePath: Option<string>, result: DetectionResult, manual: seq<ManualShape>): (r: Option<seq<Reconciled>>)
    ensures r.Some? <==> filePath == Some(result.path)
    ensures r.Some? ==> |r.value| == |result.shapes|
    ensures r.Some? ==> forall i :: 0 <= i < |result.shapes| ==> r.value[i] == AddDetectedLabel(result.shapes[i], manual)
  {
    if filePath == Some(result.path) then
      Some(seq(|result.shapes|, i requires 0 <= i < |result.shapes| => AddDetectedLabel(result.shapes[i], manual)))
    else None
  }
}

=== FILE: strings.dfy ===
/**
 * String and list primitives the Python sources lean on: `'%0Nd'` integer
 * formatting, `int()` parsing of digit strings, ASCII `lower()`,
 * `endswith`, `str.rfind` and `list.index`.
 */
module Strings {
  import opened Wrappers

  predicate IsDigit(c: char) {
    '0' <= c <= '9'
  }

  predicate AllDigits(s: string) {
    forall i :: 0 <= i < |s| ==> IsDigit(s[i])
  }

  function DigitChar(d: nat): (c: char)
    requires d < 10
    ensures IsDigit(c)
  {
    ('0' as int + d) as char
  }

  function DigitValue(c: char): (d: nat)
    requires IsDigit(c)
    ensures d < 10 && DigitChar(d) == c
  {
    c as int - '0' as int
  }

  /** Shortest decimal spelling of `n`, as Python's `str(n)` gives it. */
  function Decimal(n: nat): (s: string)
    ensures 1 <= |s| && AllDigits(s)
    ensures n < 10 <==> |s| == 1
  {
    if n < 10 then [DigitChar(n)] else Decimal(n / 10) + [DigitChar(n % 10)]
  }

  /** Value of a string of decimal digits, most significant first. */
  function ParseDigits(s: string): nat
    requires AllDigits(s)
  {
    if |s| == 0 then 0 else ParseDigits(s[..|s| - 1]) * 10 + DigitValue(s[|s| - 1])
  }

  lemma {:induction false} ParseDecimal(n: nat)
    ensures ParseDigits(Decimal(n)) == n
  {
    var s := Decimal(n);
    if n >= 10 {
      assert s[..|s| - 1] == Decimal(n / 10);
      ParseDecimal(n / 10);
    }
  }

  function Zeros(k: nat): (s: string)
    ensures |s| == k && AllDigits(s)
  {
    seq(k, _ => '0')
  }

  /** Leading zeros do not change the value of a digit string. */
  lemma {:induction false} ParseLeadingZeros(k: nat, s: string)
    requires AllDigits(s)
    ensures ParseDigits(Zeros(k) + s) == ParseDigits(s)
    decreases |s|, k
  {
    var z := Zeros(k) + s;
    if |s| == 0 {
      assert z == Zeros(k);
      if k > 0 {
        assert z[..|z| - 1] == Zeros(k - 1) + s;
        ParseLeadingZeros(k - 1, s);
      }
    } else {
      assert z[..|z| - 1] == Zeros(k) + s[..|s| - 1];
      ParseLeadingZeros(k, s[..|s| - 1]);
    }
  }

  /** `'%0{width}d' % n` for a non-negative `n`. */
  function PadDecimal(n: nat, width: nat): (s: string)
    ensures AllDigits(s)
    ensures |s| == if width > |Decimal(n)| then width else |Decimal(n)|
    ensures ParseDigits(s) == n
  {
    var d := Decimal(n);
    ParseDecimal(n);
    if width > |d| then
      ParseLeadingZeros(width - |d|, d);
      Zeros(width - |d|) + d
    else
      d
  }

  /**
   * `'%0{width}d' % n` for any integer: a negative number keeps its sign
   * in front and pads its magnitude to one place fewer.
   */
  function FormatInt(n: int, width: nat): (s: string)
    ensures ParseInt(s) == Some(n)
    ensures 0 <= n ==> AllDigits(s) && |s| == if width > |Decimal(n)| then width else |Decimal(n)|
    ensures n < 0 ==> s[0] == '-' && AllDigits(s[1..])
    ensures n < 0 ==> |s| == if width > |Decimal(-n)| + 1 then width else |Decimal(-n)| + 1
  {
    if n >= 0 then PadDecimal(n, width)
    else
      var s := "-" + PadDecimal(-n, if width > 0 then width - 1 else 0);
      assert s[1..] == PadDecimal(-n, if width > 0 then width - 1 else 0);
      assert !IsDigit(s[0]);
      s
  }

  /**
   * Python's `int(s)` on an optional sign followed by decimal digits;
   * `None` where `int` would raise `ValueError`.
   */
  function ParseInt(s: string): (r: Option<int>)
    ensures 0 < |s| && AllDigits(s) ==> r == Some(ParseDigits(s))
    ensures 1 < |s| && (s[0] == '-' || s[0] == '+') && AllDigits(s[1..]) ==>
      r == Some(if s[0] == '-' then -(ParseDigits(s[1..]) as int) else ParseDigits(s[1..]) as int)
    ensures r.Some? <==>
      (0 < |s| && AllDigits(s)) || (1 < |s| && (s[0] == '-' || s[0] == '+') && AllDigits(s[1..]))
  {
    if |s| == 0 then None
    else if AllDigits(s) then Some(ParseDigits(s))
    else if (s[0] == '-' || s[0] == '+') && 1 < |s| && AllDigits(s[1..]) then
      var m: int := ParseDigits(s[1..]);
      Some(if s[0] == '-' then -m else m)
    else None
  }

  /** Formatting is injective at any width, because parsing undoes it. */
  lemma FormatIntInjective(a: int, b: int, width: nat)
    requires FormatInt(a, width) == FormatInt(b, width)
    ensures a == b
  {
  }

  function LowerChar(c: char): (l: char)
    ensures 'A' <= c <= 'Z' ==> l as int == c as int + 32
    ensures !('A' <= c <= 'Z') ==> l == c
  {
    if 'A' <= c <= 'Z' then (c as int + 32) as char else c
  }

  /** `s.lower()` restricted to ASCII letters. */
  function Lower(s: string): (l: string)
    ensures |l| == |s|
    ensures forall i :: 0 <= i < |s| ==> l[i] == LowerChar(s[i])
  {
    seq(|s|, i requires 0 <= i < |s| => LowerChar(s[i]))
  }

  predicate EndsWith(s: string, suffix: string) {
    |suffix| <= |s| && s[|s| - |suffix|..] == suffix
  }

  predicate OccursAt<T(==)>(s: seq<T>, pat: seq<T>, i: int) {
    0 <= i && i + |pat| <= |s| && s[i..i + |pat|] == pat
  }

  /** `s.rfind(pat)` with `None` for Python's `-1`. */
  function LastIndexOf<T(==)>(s: seq<T>, pat: seq<T>): (r: Option<nat>)
    ensures r.Some? ==> OccursAt(s, pat, r.value)
    ensures r.Some? ==> forall j :: r.value < j && OccursAt(s, pat, j) ==> false
    ensures r.None? ==> forall j :: !OccursAt(s, pat, j)
  {
    if |pat| > |s| then None else LastIndexFrom(s, pat, |s| - |pat|)
  }

  /** An occurrence with none after it is what `rfind` finds. */
  lemma LastIndexOfAt<T>(s: seq<T>, pat: seq<T>, x: nat)
    requires OccursAt(s, pat, x)
    requires forall j :: x < j ==> !OccursAt(s, pat, j)
    ensures LastIndexOf(s, pat) == Some(x)
  {
  }

  function LastIndexFrom<T(==)>(s: seq<T>, pat: seq<T>, i: nat): (r: Option<nat>)
    requires i + |pat| <= |s|
    ensures r.Some? ==> r.value <= i && OccursAt(s, pat, r.value)
    ensures r.Some? ==> forall j :: r.value < j <= i && OccursAt(s, pat, j) ==> false
    ensures r.None? ==> forall j :: j <= i ==> !OccursAt(s, pat, j)
  {
    if OccursAt(s, pat, i) then Some(i)
    else if i == 0 then None
    else LastIndexFrom(s, pat, i - 1)
  }

  /** Python's `lst.index(x)` when `x in lst`, otherwise `None`. */
  function IndexOf<T(==)>(s: seq<T>, x: T): (r: Option<nat>)
    ensures r.Some? <==> x in s
    ensures r.Some? ==> r.value < |s| && s[r.value] == x
    ensures r.Some? ==> forall j :: 0 <= j < r.value ==> s[j] != x
  {
    if |s| == 0 then None
    else if s[0] == x then Some(0)
    else match IndexOf(s[1..], x)
      case None => None
      case Some(k) => Some(k + 1)
  }

  /** All elements pairwise distinct. */
  predicate NoDuplicates<T(==)>(s: seq<T>) {
    forall i, j :: 0 <= i < j < |s| ==> s[i] != s[j]
  }

  /** In a duplicate-free list, `index` is the left inverse of indexing. */
  lemma IndexOfDistinct<T>(s: seq<T>, i: nat)
    requires NoDuplicates(s) && i < |s|
    ensures IndexOf(s, s[i]) == Some(i)
  {
  }
}

=== FILE: video_file.dfy ===
/**
 * `VideoFile` (libs/videoFile.py): the properties of an opened video and
 * the `'__%06d'` frame names at its processing stride. The capture is
 * replaced by what it reports. Assigning `filePath` on a video that opens
 * updates the state and then raises `AttributeError`, because the code
 * emits through `self.signals` while only `self._signals` exists.
 */
module VideoFile {
  import opened Wrappers
  import opened Strings
  import opened Ranges
  import Geometry

  const NewFrameWidth: int := 800
  const DefaultProcessingRate: int := 30

  /** What `cv2.VideoCapture(path)` reports. */
  datatype Capture =
    | NotOpened
    | Opened(width: int, height: int, frameCount: int, fps: real)

  datatype VideoFile = VideoFile(
    filePath: Option<string>,
    frameSizes: (int, int),
    frameRate: int,
    frameCount: int,
    processingRate: int)

  /** Why assigning `filePath` raised. */
  datatype SetPathError =
    | ZeroDivision        // the width reported is 0
    | MissingSignals      // `self.signals` does not exist

  /** The state reached by the assignment and the exception it ended with, if any. */
  datatype SetPathOutcome = SetPathOutcome(file: VideoFile, error: Option<SetPathError>)

  /**
   * The `filePath` setter. A capture that does not open resets sizes,
   * rate and count but keeps the stride; one that opens takes its count,
   * and its integer frame rate as both rate and stride, before the sizes
   * are computed.
   */
  function SetFilePath(vf: VideoFile, path: Option<string>, capture: Capture): (r: SetPathOutcome)
    ensures r.file.filePath == path
    ensures capture.NotOpened? ==>
      r == SetPathOutcome(vf.(filePath := path, frameSizes := (0, 0), frameRate := 0, frameCount := 0), None)
    ensures capture.Opened? ==> r.error.Some?
    ensures capture.Opened? ==>
      && r.file.frameCount == capture.frameCount
      && r.file.frameRate == Geometry.Trunc(capture.fps)
      && r.file.processingRate == r.file.frameRate
    ensures capture.Opened? ==> (r.error == Some(ZeroDivision) <==> capture.width == 0)
    ensures r.error == Some(ZeroDivision) ==> r.file.frameSizes == vf.frameSizes
    ensures r.error == Some(MissingSignals) ==> r.file.frameSizes.0 == NewFrameWidth
  {
    match capture
    case NotOpened =>
      SetPathOutcome(vf.(filePath := path, frameSizes := (0, 0), frameRate := 0, frameCount := 0), None)
    case Opened(width, height, count, fps) =>
      var rate := Geometry.Trunc(fps);
      var counted := vf.(filePath := path, frameCount := count, frameRate := rate, processingRate := rate);
      if width == 0 then SetPathOutcome(counted, Some(ZeroDivision))
      else
        var h := Geometry.Trunc(height as real / (width as real / NewFrameWidth as real));
        SetPathOutcome(counted.(frameSizes := (NewFrameWidth, h)), Some(MissingSignals))
  }

  /** `VideoFile(file_path)`: the defaults, then the `filePath` assignment. */
  function New(path: Option<string>, capture: Capture): (r: SetPathOutcome)
    ensures capture.NotOpened? ==> r.error.None? && r.file.processingRate == DefaultProcessingRate
    ensures capture.Opened? ==> r.error.Some?
  {
    SetFilePath(VideoFile(None, (0, 0), 0, 0, DefaultProcessingRate), path, capture)
  }

  /** The `processingRate` setter. */
  function SetProcessingRate(vf: VideoFile, rate: int): (r: VideoFile)
    ensures r.processingRate == rate
    ensures r.(processingRate := vf.processingRate) == vf
  {
    vf.(processingRate := rate)
  }

  /** `'__%06d' % n`. */
  function FrameName(n: int): string {
    "__" + FormatInt(n, 6)
  }

  /**
   * `frameNames`: one name per value of `range(0, frameCount,
   * processingRate)`; `None` where `range` raises on a zero stride.
   */
  function FrameNames(vf: VideoFile): (r: Option<seq<string>>)
    ensures r.None? <==> vf.processingRate == 0
    ensures r.Some? ==> |r.value| == RangeLength(vf.frameCount, vf.processingRate)
    ensures r.Some? ==> forall i :: 0 <= i < |r.value| ==> r.value[i] == FrameName(i * vf.processingRate)
  {
    match Range(vf.frameCount, vf.processingRate)
    case None => None
    case Some(ns) => Some(seq(|ns|, i requires 0 <= i < |ns| => FrameName(ns[i])))
  }

  /** With a positive stride, the names are those of the stride's multiples below the count. */
  lemma FrameNamesMembership(vf: VideoFile, x: string)
    requires vf.processingRate > 0
    ensures x in FrameNames(vf).value <==>
      exists n :: 0 <= n < vf.frameCount && n % vf.processingRate == 0 && x == FrameName(n)
  {
    var names := FrameNames(vf).value;
    var ns := Range(vf.frameCount, vf.processingRate).value;
    assert |ns| == |names|;
    if x in names {
      var i :| 0 <= i < |names| && names[i] == x;
      var n := ns[i];
      assert n == i * vf.processingRate;
      assert n in ns;
      RangeMembership(vf.frameCount, vf.processingRate, n);
      assert 0 <= n < vf.frameCount && n % vf.processingRate == 0 && x == FrameName(n);
    }
    if exists n :: 0 <= n < vf.frameCount && n % vf.processingRate == 0 && x == FrameName(n) {
      var n :| 0 <= n < vf.frameCount && n % vf.processingRate == 0 && x == FrameName(n);
      RangeMembership(vf.frameCount, vf.processingRate, n);
      var i :| 0 <= i < |ns| && ns[i] == n;
      assert n == i * vf.processingRate;
      assert names[i] == x;
    }
  }

  /** A capture that does not open leaves no frame names, whatever the stride. */
  lemma FailedOpenHasNoFrames(vf: VideoFile, path: Option<string>)
    requires vf.processingRate != 0
    ensures FrameNames(SetFilePath(vf, path, NotOpened).file) == Some([])
  {
  }

  /** Changing the stride touches neither the count nor the sizes. */
  lemma SetProcessingRateKeepsVideo(vf: VideoFile, rate: int)
    ensures SetProcessingRate(vf, rate).frameCount == vf.frameCount
    ensures SetProcessingRate(vf, rate).frameSizes == vf.frameSizes
    ensures SetProcessingRate(vf, rate).frameRate == vf.frameRate
  {
  }

  /**
   * After an opened file, the stride is the file's own frame rate: a 25
   * fps video of 100 frames names frames 0, 25, 50 and 75, not the
   * multiples of 30 the image source lists.
   */
  lemma OpenedStrideIsFrameRate(vf: VideoFile, path: Option<string>)
    ensures var f := SetFilePath(vf, path, Opened(640, 480, 100, 25.0)).file;
      FrameNames(f) == Some([FrameName(0), FrameName(25), FrameName(50), FrameName(75)])
  {
    var f := SetFilePath(vf, path, Opened(640, 480, 100, 25.0)).file;
    assert f.processingRate == 25 && f.frameCount == 100;
    assert RangeLength(100, 25) == 4;
    var names := FrameNames(f).value;
    assert |names| == 4;
    assert names[0] == FrameName(0 * 25);
    assert names[1] == FrameName(1 * 25) && names[2] == FrameName(2 * 25) && names[3] == FrameName(3 * 25);
    assert names == [FrameName(0), FrameName(25), FrameName(50), FrameName(75)];
  }
}

=== FILE: video_images_source.dfy ===
/**
 * Frames of a video as a list of names (libs/videoImagesSource.py).
 * Every 30th frame is listed under its zero-padded number; a loaded frame
 * is shown under a composite name `<dir>/<base>__<ext> ## <id>` from
 * which `GetIndex` recovers the identifier. OpenCV is replaced by what it
 * reports: whether the file exists and opens, its frame count and width,
 * and which frames can be read.
 */
module VideoImagesSource {
  import opened Wrappers
  import opened Strings
  import opened Ranges
  import opened Frames
  import Geometry
  import Paths

  const FrameNumDelimiter: string := " ## "
  const ProcessingFrameRate: nat := 30
  const ProcessingFrameWidth: int := 800

  /** What the file system and `cv2.VideoCapture` report for the video. */
  datatype VideoProbe =
    | Missing                                   // not an existing regular file
    | NotOpened                                 // `isOpened()` is false
    | Opened(frameCount: int, width: int, height: int)

  datatype VideoSource = VideoSource(
    videoName: string,
    captureOpen: Option<bool>,                  // `None` until a capture was made
    names: seq<string>,
    frameCount: int,
    processingSizes: Option<(int, int)>)

  function NewVideoSource(videoName: string): (s: VideoSource)
    ensures s.videoName == videoName && s.names == [] && s.captureOpen.None?
    ensures s.frameCount == 0 && s.processingSizes.None?
  {
    VideoSource(videoName, None, [], 0, None)
  }

  /** `'%08d' % n`: the identifier of frame `n`. */
  function FrameId(n: int): string {
    FormatInt(n, 8)
  }

  /** The frame numbers listed: `range(0, frame_count, 30)`. */
  function FrameNumbers(frameCount: int): seq<int> {
    Range(frameCount, ProcessingFrameRate).value
  }

  /**
   * `GetNames`: the list is reset, then filled only when the video opens.
   * The second component is the returned list, or `None` where the
   * processing-size division raises `ZeroDivisionError` on a zero width
   * (after the count has been stored and before any name is added).
   */
  function GetNames(s: VideoSource, probe: VideoProbe): (r: (VideoSource, Option<seq<string>>))
    ensures r.0.videoName == s.videoName
    ensures r.1.Some? ==> r.0.names == r.1.value
    ensures r.1.None? <==> probe.Opened? && probe.width == 0
    ensures r.1.None? ==> r.0.names == []
    ensures !probe.Opened? ==> r.1 == Some([])
    ensures probe.Missing? ==> r.0 == s.(names := [])
    ensures probe.NotOpened? ==> r.0 == s.(names := [], captureOpen := Some(false))
    ensures probe.Opened? ==> r.0.captureOpen == Some(true) && r.0.frameCount == probe.frameCount
    ensures r.1.None? ==> r.0.processingSizes == s.processingSizes
    ensures r.1.Some? && probe.Opened? ==>
      r.0.processingSizes == Some((ProcessingFrameWidth, ProcessingHeight(probe.width, probe.height)))
    ensures r.1.Some? && probe.Opened? ==>
      |r.1.value| == |FrameNumbers(probe.frameCount)|
      && forall i :: 0 <= i < |r.1.value| ==> r.1.value[i] == FrameId(FrameNumbers(probe.frameCount)[i])
  {
    match probe
    case Missing => (s.(names := []), Some([]))
    case NotOpened => (s.(names := [], captureOpen := Some(false)), Some([]))
    case Opened(count, width, height) =>
      var started := s.(names := [], captureOpen := Some(true), frameCount := count);
      if width == 0 then (started, None)
      else
        var sizes := (ProcessingFrameWidth, ProcessingHeight(width, height));
        var numbers := FrameNumbers(count);
        var names := seq(|numbers|, i requires 0 <= i < |numbers| => FrameId(numbers[i]));
        (started.(names := names, processingSizes := Some(sizes)), Some(names))
  }

  /** The names listed are exactly the identifiers of the multiples of 30 below the frame count. */
  lemma GetNamesMembership(s: VideoSource, count: int, width: int, height: int, x: string)
    requires width != 0
    ensures x in GetNames(s, Opened(count, width, height)).0.names <==>
      exists n :: 0 <= n < count && n % 30 == 0 && x == FrameId(n)
  {
    var names := GetNames(s, Opened(count, width, height)).0.names;
    var numbers := FrameNumbers(count);
    if x in names {
      var i :| 0 <= i < |names| && names[i] == x;
      RangeMembership(count, 30, numbers[i]);
    }
    if exists n :: 0 <= n < count && n % 30 == 0 && x == FrameId(n) {
      var n :| 0 <= n < count && n % 30 == 0 && x == FrameId(n);
      RangeMembership(count, 30, n);
      var i :| 0 <= i < |numbers| && numbers[i] == n;
      assert names[i] == x;
    }
  }

  /** The names come in ascending frame order. */
  lemma GetNamesAscending(s: VideoSource, count: int, width: int, height: int, i: nat, j: nat)
    requires width != 0
    requires i < j < |GetNames(s, Opened(count, width, height)).0.names|
    ensures ParseInt(GetNames(s, Opened(count, width, height)).0.names[i]).value
          < ParseInt(GetNames(s, Opened(count, width, height)).0.names[j]).value
  {
    RangeAscending(count, 30, i, j);
  }

  /** The names are distinct. */
  lemma GetNamesDistinct(s: VideoSource, count: int, width: int, height: int)
    requires width != 0
    ensures NoDuplicates(GetNames(s, Opened(count, width, height)).0.names)
  {
    var names := GetNames(s, Opened(count, width, height)).0.names;
    forall i, j | 0 <= i < j < |names| ensures names[i] != names[j] {
      GetNamesAscending(s, count, width, height, i, j);
    }
  }

  /** A video of 100 frames lists frames 0, 30, 60 and 90. */
  lemma GetNamesHundredFrames(s: VideoSource)
    ensures GetNames(s, Opened(100, 640, 480)).1 == Some(["00000000", "00000030", "00000060", "00000090"])
  {
    assert RangeLength(100, 30) == 4;
    var ns := FrameNumbers(100);
    assert |ns| == 4 && ns[0] == 0 && ns[1] == 30 && ns[2] == 60 && ns[3] == 90;
    FrameIdsBelowHundred();
    var names := GetNames(s, Opened(100, 640, 480)).1.value;
    assert |names| == 4;
    assert names[0] == FrameId(ns[0]) && names[1] == FrameId(ns[1]);
    assert names[2] == FrameId(ns[2]) && names[3] == FrameId(ns[3]);
    assert names == ["00000000", "00000030", "00000060", "00000090"];
  }

  lemma FrameIdsBelowHundred()
    ensures FrameId(0) == "00000000" && FrameId(30) == "00000030"
    ensures FrameId(60) == "00000060" && FrameId(90) == "00000090"
  {
  }

  /** The list is rebuilt on every call: a second call yields what the first did. */
  lemma GetNamesRepeatable(s: VideoSource, probe: VideoProbe)
    ensures GetNames(GetNames(s, probe).0, probe).1 == GetNames(s, probe).1
  {
  }

  /**
   * What `GetIndex` looks up: the text after the last `' ## '`, or the
   * whole name when there is none. The kept text never holds the delimiter.
   */
  function StripComposite(filename: string): (b: string)
    ensures EndsWith(filename, b)
    ensures forall j :: !OccursAt(b, FrameNumDelimiter, j)
    ensures b != filename ==> OccursAt(filename, FrameNumDelimiter, |filename| - |b| - 4)
    ensures b != filename ==> forall j :: |filename| - |b| - 4 < j ==> !OccursAt(filename, FrameNumDelimiter, j)
    ensures b == filename <==> forall j :: !OccursAt(filename, FrameNumDelimiter, j)
  {
    match LastIndexOf(filename, FrameNumDelimiter)
    case None => filename
    case Some(p) =>
      var b := filename[p + 4..];
      assert forall j :: OccursAt(b, FrameNumDelimiter, j) ==> OccursAt(filename, FrameNumDelimiter, p + 4 + j) by {
        forall j | OccursAt(b, FrameNumDelimiter, j)
          ensures OccursAt(filename, FrameNumDelimiter, p + 4 + j)
        {
          assert filename[p + 4 + j..p + 4 + j + 4] == b[j..j + 4];
        }
      }
      b
  }

  /**
   * `GetIndex`: the position of the stripped name in the list, or 0 when
   * it is not listed; the first position when it is listed twice.
   */
  function GetIndex(s: VideoSource, filename: string): (i: nat)
    ensures StripComposite(filename) !in s.names ==> i == 0
    ensures StripComposite(filename) in s.names ==>
      i < |s.names| && s.names[i] == StripComposite(filename)
      && forall j :: 0 <= j < i ==> s.names[j] != StripComposite(filename)
  {
    IndexOf(s.names, StripComposite(filename)).GetOr(0)
  }

  /** The delimiter starts with a space, so a name without one cannot hold it. */
  lemma NoDelimiterWithoutSpace(s: string)
    requires ' ' !in s
    ensures forall j :: !OccursAt(s, FrameNumDelimiter, j)
  {
    DelimiterStartsWithSpace(s);
  }

  lemma DelimiterStartsWithSpace(s: string)
    ensures forall j :: OccursAt(s, FrameNumDelimiter, j) ==> s[j] == ' '
  {
    forall j | OccursAt(s, FrameNumDelimiter, j) ensures s[j] == ' ' {
      assert s[j..j + 4][0] == s[j];
    }
  }

  /** A name without a space is its own stripped name. */
  lemma StripPlainName(id: string)
    requires ' ' !in id
    ensures StripComposite(id) == id
  {
    NoDelimiterWithoutSpace(id);
  }

  /** A listed name is the digits of a non-negative frame number: it holds no space. */
  lemma ListedNameIsPlain(s: VideoSource, count: int, width: int, height: int, i: nat)
    requires width != 0
    requires i < |GetNames(s, Opened(count, width, height)).0.names|
    ensures AllDigits(GetNames(s, Opened(count, width, height)).0.names[i])
    ensures ' ' !in GetNames(s, Opened(count, width, height)).0.names[i]
  {
    RangeMembership(count, 30, FrameNumbers(count)[i]);
  }

  /** Every listed name looks itself up. */
  lemma GetIndexLeftInverse(s: VideoSource, count: int, width: int, height: int, i: nat)
    requires width != 0
    requires i < |GetNames(s, Opened(count, width, height)).0.names|
    ensures var v := GetNames(s, Opened(count, width, height)).0;
      GetIndex(v, v.names[i]) == i
  {
    var v := GetNames(s, Opened(count, width, height)).0;
    ListedNameIsPlain(s, count, width, height, i);
    StripPlainName(v.names[i]);
    GetNamesDistinct(s, count, width, height);
    IndexOfDistinct(v.names, i);
  }

  /** `fext[1:]`: the extension without its dot. */
  function ExtensionWord(ext: string): string {
    if |ext| == 0 then ext else ext[1..]
  }

  /** The video's directory, base name, and extension word. */
  function VideoParts(videoName: string): (string, string, string) {
    var (fpath, file) := Paths.Split(videoName);
    var (fname, fext) := Paths.SplitExt(file);
    (fpath, fname, ExtensionWord(fext))
  }

  /** `'{0}/{1}__{2} ## {4}'`: the name a frame is shown under. */
  function CompositeName(videoName: string, id: string): (c: string)
    ensures EndsWith(c, FrameNumDelimiter + id)
  {
    var (fpath, fname, ext) := VideoParts(videoName);
    var prefix := fpath + "/" + fname + "__" + ext;
    assert prefix + FrameNumDelimiter + id == prefix + (FrameNumDelimiter + id);
    prefix + FrameNumDelimiter + id
  }

  /** `'{0}/{1}__{2}/{1}__{3}.jpg'`: where the frame is saved. */
  function SavePath(videoName: string, id: string): (p: string)
    ensures EndsWith(p, id + ".jpg")
  {
    var (fpath, fname, ext) := VideoParts(videoName);
    var prefix := fpath + "/" + fname + "__" + ext + "/" + fname + "__";
    assert prefix + id + ".jpg" == prefix + (id + ".jpg");
    prefix + id + ".jpg"
  }

  /**
   * The composite name leads back to its identifier, whatever the video
   * path holds (a `' ## '` inside it included), as long as the identifier
   * has no space, as every listed identifier does.
   */
  lemma CompositeRoundTrip(s: VideoSource, videoName: string, id: string)
    requires ' ' !in id
    ensures StripComposite(CompositeName(videoName, id)) == id
    ensures GetIndex(s, CompositeName(videoName, id)) == GetIndex(s, id)
  {
    StripDelimitedSuffix(CompositeName(videoName, id), id);
    StripPlainName(id);
  }

  /** Any name ending in `' ## '` and a space-free identifier strips to that identifier. */
  lemma StripDelimitedSuffix(c: string, id: string)
    requires ' ' !in id
    requires EndsWith(c, FrameNumDelimiter + id)
    ensures StripComposite(c) == id
  {
    var x := |c| - |id| - 4;
    assert c[x..] == FrameNumDelimiter + id;
    assert c[x..x + 4] == FrameNumDelimiter;
    forall j | x < j ensures !OccursAt(c, FrameNumDelimiter, j) {
      if j + 4 <= |c| {
        assert c[j..j + 4][3] == c[j + 3] == c[x..][j + 3 - x] == id[j + 3 - x - 4];
        assert id[j + 3 - x - 4] in id;
      }
    }
    LastIndexOfAt(c, FrameNumDelimiter, x);
    assert c[x + 4..] == id;
  }

  /** Distinct identifiers are saved to distinct paths. */
  lemma SavePathInjective(videoName: string, a: string, b: string)
    requires SavePath(videoName, a) == SavePath(videoName, b)
    ensures a == b
  {
    var pa, pb := SavePath(videoName, a), SavePath(videoName, b);
    var k := |pa| - |a| - 4;
    assert pa[k..|pa| - 4] == a;
    assert pb[k..|pb| - 4] == b;
  }

  /**
   * Where `GetImage` raises: `ValueError` when `int(filename)` does, and
   * `ResizeError` when a frame was read but `cv2.resize` is given no
   * processing size, or one with a side that is not positive.
   */
  datatype ImageError = ValueError | ResizeError

  /** `cv2.resize` accepts the processing size: present and positive on both sides. */
  predicate Resizable(sizes: Option<(int, int)>) {
    sizes.Some? && sizes.value.0 > 0 && sizes.value.1 > 0
  }

  /**
   * `GetImage(filename)`: the name is parsed as a frame number first; a
   * frame comes back only from an open capture that can read that frame,
   * resized to the processing size, under the composite name and save
   * path of its identifier, with `ok` telling whether the conversion
   * succeeded.
   */
  function GetImage(s: VideoSource, filename: string, readable: set<int>, converts: bool): (r: Result<Fetched, ImageError>)
    ensures ParseInt(filename).None? ==> r == Err(ValueError)
    ensures r == Err(ResizeError) <==>
      ParseInt(filename).Some? && s.captureOpen == Some(true) && ParseInt(filename).value in readable
      && !Resizable(s.processingSizes)
    ensures r.Ok? && r.value.frame.Some? <==>
      s.captureOpen == Some(true) && ParseInt(filename).Some? && ParseInt(filename).value in readable
      && Resizable(s.processingSizes)
    ensures r.Ok? && r.value.frame.None? ==> r.value == NotFetched
    ensures r.Ok? && r.value.frame.Some? ==>
      r.value.ok == converts
      && r.value.frame.value == Frame(filename, CompositeName(s.videoName, filename), Some(SavePath(s.videoName, filename)))
  {
    match ParseInt(filename)
    case None => Err(ValueError)
    case Some(framenum) =>
      if s.captureOpen == Some(true) && framenum in readable then
        if Resizable(s.processingSizes) then
          Ok(Fetched(converts, Some(Frame(filename, CompositeName(s.videoName, filename), Some(SavePath(s.videoName, filename))))))
        else Err(ResizeError)
      else Ok(NotFetched)
  }

  /**
   * A video reporting zero width never gets a processing size, so every
   * readable frame of it raises on resize.
   */
  lemma ZeroWidthFramesRaise(name: string, count: int, height: int, filename: string, readable: set<int>, converts: bool)
    requires ParseInt(filename).Some? && ParseInt(filename).value in readable
    ensures var v := GetNames(NewVideoSource(name), Opened(count, 0, height)).0;
      GetImage(v, filename, readable, converts) == Err(ResizeError)
  {
  }

  /** The processing height after enumeration: `int(height / (width / 800))`. */
  function ProcessingHeight(width: int, height: int): int
    requires width != 0
  {
    Geometry.Trunc(height as real / (width as real / ProcessingFrameWidth as real))
  }

  /**
   * For a real frame size the processing height is positive exactly when
   * the frame is at most 800 times wider than high; a thinner strip
   * truncates to 0 and its frames cannot be resized.
   */
  lemma ProcessingHeightPositive(width: int, height: int)
    requires width > 0 && height >= 0
    ensures ProcessingHeight(width, height) > 0 <==> 800 * height >= width
  {
    var x := height as real / (width as real / 800.0);
    assert x == (800 * height) as real / width as real;
    assert x >= 1.0 <==> (800 * height) as real >= width as real;
  }

  /**
   * Loading a listed name reads exactly the frame it was formatted from;
   * the frame is shown iff it can be read and the processing height is
   * positive, and raises on resize iff it can be read and the height is not.
   */
  lemma GetImageOfListedName(s: VideoSource, count: int, width: int, height: int, i: nat, readable: set<int>, converts: bool)
    requires width != 0
    requires i < |GetNames(s, Opened(count, width, height)).0.names|
    ensures var v := GetNames(s, Opened(count, width, height)).0;
      var r := GetImage(v, v.names[i], readable, converts);
      && (r.Ok? && r.value.frame.Some? <==> FrameNumbers(count)[i] in readable && ProcessingHeight(width, height) > 0)
      && (r.Err? <==> FrameNumbers(count)[i] in readable && ProcessingHeight(width, height) <= 0)
      && (r.Err? ==> r.error == ResizeError)
  {
  }
}

=== FILE: wrappers.dfy ===
/** Failure-carrying values shared by every module of the model. */
module Wrappers {

  /** A value that may be absent; stands for Python's `None`. */
  datatype Option<+T> = None | Some(value: T) {

    /** The carried value, or `default` when absent. */
    function GetOr(default: T): T {
      match this
      case Some(v) => v
      case None => default
    }
  }

  /** The outcome of an operation that either returns a value or raises. */
  datatype Result<+R, +E> = Ok(value: R) | Err(error: E)
}
